=== FILE: README.md ===
# Rate filter: a Dafny model

This project models the core of the FogLAMP "rate" filter. The filter takes batches of readings, each an asset name, two timestamps and named data points. It passes them on in one of two modes:

- **Untriggered** (the initial mode). Readings are reduced to periodic averages. Each one is also kept in an age-bounded pre-trigger buffer.
- **Triggered**. Every reading is forwarded unchanged.

A trigger expression over the data points switches to triggered mode. When it fires, the pre-trigger buffer is flushed, optionally keeping only the entries whose filter data point equals the trigger's. An untrigger expression switches back. Assets on an exclusion list are forwarded unchanged while untriggered.

The model is purely functional. One `Filter` record holds the configuration, the single trigger state, the two evaluators, the pre-trigger buffer and the averaging accumulator. The state is one boolean for the whole filter, not one per asset. Each operation of the source is a function from a record to a new record.

Modules:

- `Readings`: readings, data points and values. Integer and floating-point values are interpreted; every other kind is `Other`.
- `Timevals`: `struct timeval` with `timeradd`, `timersub` and `timercmp(>)`, written out literally. Lemmas show they are exact microsecond arithmetic on normalised values.
- `Rate`: the conversion of the configured rate and unit into the averaging interval, with C's truncating integer division.
- `NameOrder`: the lexicographic key order of `std::map<std::string, …>`.
- `Averaging`: the per-name running sums, kept as a sorted association list, with the count and the time of the last emission. It covers `addDataPoint`, the fold in `addAverageReading`, `averageReading` and `clearAverage`.
- `Pretrigger`: `bufferPretrigger` with its eviction loop, and both `sendPretrigger` variants.
- `Evaluators`: the expression evaluator's variable binding. There are `MAX_EXPRESSION_VARIABLES` = 20 slots, bound to a bare name and an `asset.name` name per integer or float data point of the sample reading. The module also covers the slot updates of `evaluate`.
  - Compiling and running the expression is a `Compiler` parameter. It maps the expression text and the bound names to a function of the bound slot values; the verdict is "non-zero".
  - The trigger and untrigger evaluators each own their slots. The trigger step leaves the untrigger evaluator unchanged and the untrigger step leaves the trigger evaluator unchanged.
- `RateFilter`: the setters, `handleConfig`, construction, `reconfigure`, `isExcluded` and `ingest`.
  - `ingest` is modelled as a lazy evaluator build followed by the two mutually recursive handlers.
  - Those handlers are `Run` over the remaining batch with one step function per state.
- `FilterProperties`: properties of whole ingestions. They cover:
  - splitting a batch;
  - pass-through of excluded assets;
  - forwarding while triggered;
  - dropping while untriggered without averaging;
  - when a reconfiguration takes effect;
  - the livelock.

Modelling choices:

- **Timestamps** are whole microseconds. The source's `timeval` tests are modelled literally and then shown equal to microsecond comparisons.
- **Sums and averages** are exact `real`s.
- **The livelock.** Sometimes a reading fires the untrigger and then, handed back to the untriggered handler, fires the trigger again. The source then recurses without end on that reading. `Run` returns `Diverges` in that case, and `FilterProperties.LivelockCycle` proves that the state really cycles with no output.

Three behaviours of the code may surprise a reader; the model follows the code in each:

- **Clearing keeps the count.** One might expect a reset of the averages to restart the count of folded readings too. `clearAverage` zeroes the sums but keeps the count (rate_filter.cpp:371-378). As a result, the first average after a trigger and release also divides by readings folded before the trigger (`Averaging.ClearedAverageKeepsOldCount`).
- **Exclusions accumulate.** Each configuration appends its exclusions to those already held, and nothing ever clears them (rate_filter.cpp:521). An asset removed from the exclusions by a reconfiguration therefore stays excluded.
- **Compile errors are silent.** One might expect an expression that does not compile to be reported as a configuration error. The result of `m_parser.compile` is ignored (rate_filter.cpp:412), so nothing is reported, and the model takes whatever the `Compiler` parameter yields.

Two further differences are evident defects; they are listed under Findings. In each case the model defines the as-written behaviour and the corrected behaviour, and uses the corrected one.

## Model

| member | source | states |
|---|---|---|
| Timevals.FromMicros | rate_filter.cpp:189-190 | a user timestamp read as a timeval is normalised and denotes exactly that many microseconds |
| Timevals.TimerAdd | rate_filter.cpp:312 | `timeradd` adds the instants; the sum is normalised when the left operand is and the right's microseconds lie in 0..1000000 |
| Timevals.TimerSub | rate_filter.cpp:191 | `timersub` subtracts the instants; normalised operands give a normalised difference |
| Timevals.TimerGreaterExact | rate_filter.cpp:313 | on normalised operands `timercmp(>)` is the comparison of the instants |
| Timevals.DeadlineExact | rate_filter.cpp:310-313 | the averaging deadline test is "user timestamp > last emission + interval" in microseconds |
| Timevals.AgeExact | rate_filter.cpp:189-192 | the eviction age test is "now − entry timestamp > window" in microseconds |
| Rate.CDiv | rate_filter.cpp:490 | C integer division: truncation toward zero, exact quotient for non-negative operands |
| Rate.RateInterval | rate_filter.cpp:480-506 | rate 0 gives (0,0); for a positive rate, each unit gives the floor of its 1000000 µs, 60 s, 3600 s or 86400 s divided by the rate; an unknown unit keeps the previous interval |
| Rate.AveragingDisabledIff | rate_filter.cpp:480-506 | for any rate, averaging is off exactly when the rate is 0, when its magnitude is too high for the unit (more than 60 per minute, say, either sign), or when the unit is unknown and the previous interval was off |
| Rate.NegativeRateInterval | rate_filter.cpp:488-506 | a negative rate per minute, hour or day of small magnitude gives a negative whole-second interval |
| Rate.RateIntervalExamples | rate_filter.cpp:487-506 | worked intervals: 2/min → 30 s, 7/min → 8 s, -7/min → -8 s, 3/s → 333333 µs, 5000/hour → 0, unknown unit → unchanged, so -5/s followed by 5 in an unknown unit stays at -200000 µs |
| Averaging.AddDataPoint | rate_filter.cpp:326-337 | adding to the sum table keeps it sorted by name, adds the value to that name's sum (inserting it if absent) and leaves every other name's sum alone |
| Averaging.AddDataPointIsMapUpdate | rate_filter.cpp:328-336 | as a map, the table after `addDataPoint` is the old map with `name` incremented, or inserted with the value |
| Averaging.AddValue | rate_filter.cpp:298-306 | only integer and float data points change the sums |
| Averaging.FoldDatapoints | rate_filter.cpp:295-307 | folding a reading adds exactly its integer and float names and, per name, the total of its values |
| Averaging.ZeroSums | rate_filter.cpp:373-377 | every sum becomes 0.0, each name staying in place |
| Averaging.ClearAverage | rate_filter.cpp:371-378 | clearing zeroes every sum, keeps every name, and keeps the count and the last emission time |
| Averaging.AverageReading | rate_filter.cpp:345-365 | the average has one float per accumulated name, in ascending name order, equal to sum / count; it carries the template's asset and both timestamps; the sums are then zeroed with names kept and the count is 0 |
| Averaging.AddAverageReading | rate_filter.cpp:293-318 | the reading is folded in and counted; an average is emitted iff its user timestamp is strictly past last emission + interval, and is then the average of the old sums plus the reading over count + 1, after which the count is 0, the sums are zeroed and the last emission time is the reading's |
| Averaging.AveragingExample | rate_filter.cpp:293-365 | v = 10, 20, 30 with one deadline crossed at the third reading emits exactly one average, v = 20.0 |
| Averaging.ClearedAverageKeepsOldCount | rate_filter.cpp:371-378 | because clearing keeps the count, two readings, a clear and one reading of v = 30 emit v = 10.0 |
| Pretrigger.WindowTimeval | rate_filter.cpp:184-185 | the window in milliseconds becomes a normalised timeval of window × 1000 µs |
| Pretrigger.ExpiredExact | rate_filter.cpp:188-192 | the eviction test is "age strictly greater than window × 1000 µs" |
| Pretrigger.Evict | rate_filter.cpp:186-202 | eviction pops a prefix of expired entries and stops at the first unexpired one, which exists because the newest entry is never evicted |
| Pretrigger.BufferPretrigger | rate_filter.cpp:169-203 | window 0 leaves the buffer alone; otherwise the reading is appended, only expired entries are popped from the front, and the buffer ends non-empty with the reading last |
| Pretrigger.WindowInvariant | rate_filter.cpp:178-202 | with readings in timestamp order, the buffer stays in order and holds only entries within the window of the newest |
| Pretrigger.OutOfOrderSurvivor | rate_filter.cpp:186-201 | out of order, an entry far older than the window survives behind one that is not expired |
| Pretrigger.EvictionExample | rate_filter.cpp:169-203 | a 1000 ms window and inserts at t, t+500 ms and t+1200 ms keep the last two |
| Pretrigger.UnfilteredFlushIsFlushAll | rate_filter.cpp:210-241 | with no filter name, or a trigger without that data point, the two-argument flush is the one-argument flush of the whole buffer; with a filter in force, it equals that flush only if every entry carries the reference value |
| Pretrigger.LastValue | rate_filter.cpp:231-241 | the reference value is that of the trigger's last data point with the filter name, and is absent iff no data point has that name |
| Pretrigger.Carries | rate_filter.cpp:251-271 | an entry matches iff some same-named data point has the same kind, integer or float, and an equal value |
| Pretrigger.Select | rate_filter.cpp:242-282 | the filtered flush forwards exactly the matching entries and drops the rest |
| Pretrigger.SelectAppend | rate_filter.cpp:242-282 | the filtered flush keeps FIFO order: it distributes over concatenation |
| Pretrigger.SendPretrigger | rate_filter.cpp:227-283 | with no filter name, or a trigger without that data point, everything is forwarded; otherwise an entry is forwarded iff it carries the reference value |
| Pretrigger.NonNumericFilterDropsAll | rate_filter.cpp:258-269 | a reference value that is neither integer nor float matches nothing |
| Pretrigger.FilterExample | rate_filter.cpp:253-275 | with filter `mode`, a mode=1 entry goes out on a mode=1 trigger and is dropped on a mode=2 one |
| Evaluators.PairsIndex | rate_filter.cpp:396-397 | the name list holds each bound data point's bare name at position 2i and `asset.name` at 2i + 1 |
| Evaluators.BindNames | rate_filter.cpp:389-404 | the binding scan yields the name pairs of the leading integer and float data points until the table is full |
| Evaluators.Build | rate_filter.cpp:387-413 | a fresh evaluator has an even number of names, at most 20, over 20 slots, bound from the sample's first ten numeric data points at most |
| Evaluators.BindsAtMostTen | rate_filter.cpp:396-403 | exactly min(10, number of numeric data points) data points are bound, in data-point order |
| Evaluators.WriteSlots | rate_filter.cpp:438-449 | one data point writes its value into every bound slot whose name is its bare or qualified name, and no other slot |
| Evaluators.Rebind | rate_filter.cpp:423-450 | after a reading, each slot holds the value of the last data point matching its name, or its old value if none matches |
| Evaluators.RebindIdempotent | rate_filter.cpp:423-450 | rebinding the same reading twice gives the slots of rebinding once |
| Evaluators.Evaluate | rate_filter.cpp:421-452 | evaluation keeps text and names, updates exactly the matched slots to the last match's value, and its verdict is the compiled expression over the bound slots being non-zero |
| Evaluators.EvaluateIdempotent | rate_filter.cpp:421-452 | evaluating the same reading twice gives the same slots and verdict as once |
| Evaluators.NonNumericWritesZero | rate_filter.cpp:427-436 | a matched data point that is neither integer nor float writes 0.0 |
| RateFilter.SetTrigger | include/rate_filter.h:47-50 | overwrites the trigger text and nothing else |
| RateFilter.SetUntrigger | include/rate_filter.h:51-54 | overwrites the untrigger text and nothing else |
| RateFilter.SetPreTrigger | include/rate_filter.h:55-58 | overwrites the pre-trigger window and nothing else |
| RateFilter.HandleConfigAsWritten | rate_filter.cpp:474-539 | as written: texts, window and interval are taken, exclusions appended, and the pre-trigger filter field is left as it was |
| RateFilter.HandleConfig | rate_filter.cpp:474-539 | as intended: as written, and the configured pre-trigger filter name is stored |
| RateFilter.ConfiguredFilterIgnored | rate_filter.cpp:507 | as written, a filter with no filter name keeps flushing the whole buffer whatever is configured |
| RateFilter.ConfiguredFilterApplies | rate_filter.cpp:507 | corrected, a configured filter name drops non-matching buffered entries on a trigger |
| RateFilter.Create | rate_filter.cpp:24-36 | a new filter is untriggered, has no evaluators, an empty buffer and table, count 0 and last emission 0; it holds the configured texts, window, filter name and exclusions, and the interval computed with (0,0) as the unset previous interval |
| RateFilter.Reconfigure | rate_filter.cpp:459-465 | a reconfiguration applies the configuration and sets the pending flag, keeping the evaluators, the state, the buffer and the sums |
| RateFilter.IsExcluded | rate_filter.cpp:548-558 | an asset is excluded iff it equals an entry of the exclusion list |
| RateFilter.UntriggerTextAsWritten | rate_filter.cpp:70-77 | as written, the default untrigger text is the same four characters whatever the trigger is |
| RateFilter.UntriggerText | rate_filter.cpp:70-77 | corrected, the default untrigger text is `! (trigger)` |
| RateFilter.DefaultUntriggerIgnoresTrigger | rate_filter.cpp:70-77 | for any non-empty trigger the as-written default is `! ()`, not the trigger's negation |
| RateFilter.Prepare | rate_filter.cpp:54-78 | a pending reconfiguration clears the flag and forces a rebuild; missing evaluators are built from the batch's first reading; otherwise nothing changes |
| RateFilter.UntriggeredStep | rate_filter.cpp:127-160 | untriggered: an excluded reading is forwarded and nothing else happens; a firing trigger flips the state, zeroes the sums and flushes the buffer; otherwise the reading is buffered, folded only when averaging is on, and only a due average is output |
| RateFilter.TriggeredStep | rate_filter.cpp:98-117 | triggered: the reading is forwarded iff the untrigger does not fire; on firing the state flips and the reading is not output |
| RateFilter.Run | rate_filter.cpp:98-160 | the handlers keep the filter well formed and never change its configuration |
| RateFilter.Ingest | rate_filter.cpp:52-88 | after `ingest` the evaluators exist and no reconfiguration is pending; an empty batch with evaluators built changes nothing |
| FilterProperties.RunSplit | rate_filter.cpp:98-160 | handling a + b equals handling a and then b from the state reached |
| FilterProperties.IngestSplit | rate_filter.cpp:52-88 | two `ingest` calls equal one call on the concatenated batch |
| FilterProperties.QuietDropsAllButExcluded | rate_filter.cpp:127-160 | untriggered, with averaging off and a quiet trigger, the output is exactly the excluded readings in order |
| FilterProperties.ExcludedPassThrough | rate_filter.cpp:135-138 | untriggered, an all-excluded batch is output unchanged and the filter is left exactly as it was |
| FilterProperties.ExcludedPassThroughAnyState | rate_filter.cpp:106-138 | in either state an all-excluded batch is output unchanged and never diverges: triggered, a reading on which the untrigger fires is handed back untriggered and forwarded as excluded |
| FilterProperties.TriggeredForwardsAll | rate_filter.cpp:98-117 | triggered, while the untrigger is quiet, the whole batch is forwarded in order, with buffer, sums and trigger evaluator untouched |
| FilterProperties.TriggerThenForward | rate_filter.cpp:141-148 | a trigger on the first reading outputs the flushed buffer, then that reading and the rest of the batch while the untrigger stays quiet on them, and leaves the buffer empty |
| FilterProperties.DivergesOneIff | rate_filter.cpp:106-148 | one reading diverges iff, in the state it meets (or, untriggered, in the state its firing trigger leads to), it fires the untrigger and then, handled again untriggered, the trigger |
| FilterProperties.DivergesAtReading | rate_filter.cpp:98-160 | a divergent batch has a reading such that the readings before it complete and that reading diverges from the state they reach |
| FilterProperties.LivelockCycle | rate_filter.cpp:106-148 | a reading that fires the untrigger and then the trigger makes `Run` diverge, and one more round trip returns to the same state with no output |
| FilterProperties.RebuildOnNextIngest | rate_filter.cpp:54-77 | a reconfiguration keeps the old evaluators until the next non-empty `ingest`, which rebuilds both from its first reading with the new texts |
| FilterProperties.PendingUnobservedBeforeBuild | rate_filter.cpp:54-65 | before the first build the pending flag's value makes no difference |
| FilterProperties.TriggerKeepsCount | rate_filter.cpp:141-144 | a trigger zeroes every sum but keeps the count |

## Findings

| source | as written | input that shows it | evidently intended | confidence | as-written member | corrected member |
|---|---|---|---|---|---|---|
| rate_filter.cpp:70-77 | with no untrigger configured, the default untrigger text is built from the empty untrigger itself, giving `! ()` | trigger `x > 5`, untrigger empty: the compiled untrigger is `! ()` | the negation of the trigger, `! (x > 5)` | high; not executed | RateFilter.UntriggerTextAsWritten | RateFilter.UntriggerText |
| rate_filter.cpp:507 | `pretriggerFilter` is read into a local `string m_pretriggerFilter` that shadows the field, so the field stays empty | pretriggerFilter `mode`, buffered entry with mode=1, trigger with mode=2: the entry is still forwarded | the configured filter name is stored and applied on the flush | high; not executed | RateFilter.HandleConfigAsWritten | RateFilter.HandleConfig |

The first row is shown by `RateFilter.DefaultUntriggerIgnoresTrigger`, the second by `RateFilter.ConfiguredFilterIgnored` and `RateFilter.ConfiguredFilterApplies`. `Prepare`, `Create` and `Reconfigure` use the corrected definitions.

## Left out

- **Expressions.** Parsing, compiling and running exprtk expressions is left out. The compiled expression is the `Compiler` parameter. Compile failures, NaN and other exprtk semantics are not modelled.
- **Floating point.** Values, sums and averages are exact `real`s. IEEE rounding, and the float equality of the filtered flush, are not modelled. Integer data points are unbounded integers.
- **Configuration parsing.** `Config` holds the values already parsed. Left out are:
  - `strtol` and its `int` truncation;
  - the JSON parse of the exclusion list, with its error logging and its skipping of non-string elements;
  - `getValue` and `setConfig`.
- **Locking and memory.** The configuration mutex is left out; `ingest` and `reconfigure` are modelled as sequential calls. Reading copies, `new` and `delete` are left out.
- **The caller's batch vector.** The source empties and erases the caller's vector. The model consumes the whole batch and returns only the output sequence.
- **The invalidated iterator.** After `erase` the source passes `*reading` to the flush through an iterator the erase invalidated. The model uses the triggering reading, which is then at the head of the batch.
- **Uninitialised fields.** These are given fixed values:
  - the evaluator slots get 0.0;
  - `m_rate` gets (0,0), which matters when the first configuration has a non-zero rate with an unknown unit;
  - `m_pendingReconfigure` gets false. `FilterProperties.PendingUnobservedBeforeBuild` shows this last value cannot be observed.
- **Negative pre-trigger windows.** A negative window empties the buffer and then reads its front, which is undefined behaviour, so `Ingest`, `Run` and `BufferPretrigger` require a window of at least 0.
- **Empty batches.** An `ingest` that must build evaluators reads the first reading of the batch, so it requires a non-empty batch.
- Averaging.AddAverageReading: the "emitted iff past the deadline" equivalence is stated only for intervals whose microsecond field lies in 0..1000000. Every non-negative rate with a known unit produces such an interval, as does an unknown unit whose previous interval is in range, and so does a negative rate per minute, hour or day, whose interval is a whole number of seconds (`Rate.NegativeRateInterval`). A negative rate per second gives a negative microsecond field, which a later configuration with an unknown unit keeps (`Rate.RateIntervalExamples`); for such an interval only the literal `timeval` test in the body applies.
- RateFilter.Run: the endless recursion of the livelock is modelled as the outcome `Diverges` rather than as non-termination. The source recurses without end.
- **Other files.** The plugin entry points and default configuration (plugin.cpp), logging, and the remaining reading and data-point API are not part of this model.

=== FILE: averaging.dfy ===
/**
 The averaging accumulator: a name-keyed table of running sums (kept as an
 association list sorted by name, as `std::map` keeps it), the number of
 readings folded in since the last emission, and the user timestamp of the
 last emitted average. Sums and averages are exact `real`s.
 */
module Averaging {
  import opened Readings
  import opened Timevals
  import NameOrder

  datatype Entry = Entry(name: string, sum: real)

  datatype Averager = Averager(sums: seq<Entry>, count: nat, lastSent: int)

  /** The result of folding one reading: the new accumulator and the average, if one was due. */
  datatype Folded = Folded(acc: Averager, emitted: Option<Reading>)

  /** Strictly ascending names, hence no name twice. */
  predicate Sorted(es: seq<Entry>)
  {
    forall i, j :: 0 <= i < j < |es| ==> NameOrder.Less(es[i].name, es[j].name)
  }

  function Names(es: seq<Entry>): set<string>
  {
    if |es| == 0 then {} else {es[0].name} + Names(es[1..])
  }

  /** The running sum kept for `name`; a name not in the table reads as 0.0. */
  function Lookup(es: seq<Entry>, name: string): real
  {
    if |es| == 0 then 0.0
    else if es[0].name == name then es[0].sum
    else Lookup(es[1..], name)
  }

  /** The table as a map, the abstraction the association list implements. */
  function ToMap(es: seq<Entry>): map<string, real>
  {
    map k | k in Names(es) :: Lookup(es, k)
  }

  lemma {:induction false} NamesIndex(es: seq<Entry>, name: string)
    ensures name in Names(es) <==> exists i :: 0 <= i < |es| && es[i].name == name
    decreases |es|
  {
    if |es| > 0 {
      NamesIndex(es[1..], name);
      if name in Names(es[1..]) {
        var i :| 0 <= i < |es[1..]| && es[1..][i].name == name;
        assert es[i + 1].name == name;
      }
      if exists i :: 0 <= i < |es| && es[i].name == name {
        var i :| 0 <= i < |es| && es[i].name == name;
        if i > 0 {
          assert es[1..][i - 1].name == name;
        }
      }
    }
  }

  lemma LookupAbsent(es: seq<Entry>, name: string)
    requires name !in Names(es)
    ensures Lookup(es, name) == 0.0
  {
  }

  /** In a sorted table every name after the first is above the first. */
  lemma HeadBelowRest(es: seq<Entry>, name: string)
    requires Sorted(es) && |es| > 0 && name in Names(es[1..])
    ensures NameOrder.Less(es[0].name, name)
  {
    NamesIndex(es[1..], name);
    var i :| 0 <= i < |es[1..]| && es[1..][i].name == name;
    assert es[i + 1].name == name;
  }

  lemma HeadBelowAll(es: seq<Entry>)
    requires Sorted(es) && |es| > 0
    ensures forall k :: k in Names(es[1..]) ==> NameOrder.Less(es[0].name, k)
  {
    forall k | k in Names(es[1..]) ensures NameOrder.Less(es[0].name, k) {
      HeadBelowRest(es, k);
    }
  }

  lemma BelowHeadAbsent(es: seq<Entry>, name: string)
    requires Sorted(es) && |es| > 0 && NameOrder.Less(name, es[0].name)
    ensures name !in Names(es)
  {
    NameOrder.Irreflexive(es[0].name);
    NameOrder.Asymmetric(name, es[0].name);
    if name in Names(es[1..]) {
      HeadBelowRest(es, name);
      assert false;
    }
  }

  /** Putting a name below all of a sorted table's names in front keeps it sorted. */
  lemma SortedCons(e: Entry, es: seq<Entry>)
    requires Sorted(es)
    requires forall k :: k in Names(es) ==> NameOrder.Less(e.name, k)
    ensures Sorted([e] + es)
    ensures Names([e] + es) == {e.name} + Names(es)
  {
    var r := [e] + es;
    assert r[1..] == es;
    forall i, j | 0 <= i < j < |r| ensures NameOrder.Less(r[i].name, r[j].name) {
      if i == 0 {
        NamesIndex(es, es[j - 1].name);
      }
    }
  }

  /** `addDataPoint`: add `value` to the sum kept for `name`, inserting the name if absent. */
  function AddDataPoint(es: seq<Entry>, name: string, value: real): (r: seq<Entry>)
    requires Sorted(es)
    ensures Sorted(r)
    ensures Names(r) == Names(es) + {name}
    ensures Lookup(r, name) == Lookup(es, name) + value
    ensures forall other :: other != name ==> Lookup(r, other) == Lookup(es, other)
  {
    if |es| == 0 then [Entry(name, value)]
    else if es[0].name == name then
      HeadBelowAll(es);
      SortedCons(Entry(name, es[0].sum + value), es[1..]);
      [Entry(name, es[0].sum + value)] + es[1..]
    else if NameOrder.Less(name, es[0].name) then
      BelowHeadAbsent(es, name);
      LookupAbsent(es, name);
      HeadBelowAll(es);
      forall k | k in Names(es) ensures NameOrder.Less(name, k) {
        if k != es[0].name {
          NameOrder.Transitive(name, es[0].name, k);
        }
      }
      SortedCons(Entry(name, value), es);
      [Entry(name, value)] + es
    else
      NameOrder.Total(name, es[0].name);
      var tail := AddDataPoint(es[1..], name, value);
      HeadBelowAll(es);
      SortedCons(es[0], tail);
      var r := [es[0]] + tail;
      assert r[1..] == tail;
      r
  }

  /** The table-level reading of `AddDataPoint`: a map update that adds to the old entry or inserts. */
  lemma AddDataPointIsMapUpdate(es: seq<Entry>, name: string, value: real)
    requires Sorted(es)
    ensures ToMap(AddDataPoint(es, name, value))
            == ToMap(es)[name := if name in ToMap(es) then ToMap(es)[name] + value else value]
  {
    if name !in Names(es) {
      LookupAbsent(es, name);
    }
    UpdateByLookups(es, AddDataPoint(es, name, value), name, value);
  }

  /** A table that differs from `es` only by `value` added at `name` is, as a map, that update. */
  lemma UpdateByLookups(es: seq<Entry>, r: seq<Entry>, name: string, value: real)
    requires Names(r) == Names(es) + {name}
    requires Lookup(r, name) == Lookup(es, name) + value
    requires name !in Names(es) ==> Lookup(es, name) == 0.0
    requires forall other :: other != name ==> Lookup(r, other) == Lookup(es, other)
    ensures ToMap(r) == ToMap(es)[name := if name in ToMap(es) then ToMap(es)[name] + value else value]
  {
    var m := ToMap(es);
    var m1 := ToMap(r);
    var m2 := m[name := if name in m then m[name] + value else value];
    ToMapFacts(es);
    ToMapFacts(r);
    forall k | k in m1 ensures m1[k] == m2[k] {
      if k == name {
        assert m1[k] == Lookup(r, name);
      } else {
        assert m1[k] == Lookup(es, k) == m[k];
      }
    }
    MapExtensional(m1, m2);
  }

  lemma ToMapFacts(es: seq<Entry>)
    ensures ToMap(es).Keys == Names(es)
    ensures forall k :: k in ToMap(es) ==> ToMap(es)[k] == Lookup(es, k)
  {
  }

  lemma MapExtensional(m1: map<string, real>, m2: map<string, real>)
    requires m1.Keys == m2.Keys && forall k :: k in m1 ==> m1[k] == m2[k]
    ensures m1 == m2
  {
  }

  /** Adds one data point's value when it is an integer or a float; ignores any other kind. */
  function AddValue(es: seq<Entry>, dp: Datapoint): (r: seq<Entry>)
    requires Sorted(es)
    ensures Sorted(r)
    ensures Names(r) == Names(es) + (if IsNumeric(dp.value) then {dp.name} else {})
    ensures forall name :: Lookup(r, name) == Lookup(es, name) + (if dp.name == name then AsReal(dp.value) else 0.0)
  {
    match dp.value
    case Int(i) => AddDataPoint(es, dp.name, i as real)
    case Float(f) => AddDataPoint(es, dp.name, f)
    case Other => es
  }

  /** The names of a reading's integer and float data points. */
  function NumericNames(dps: seq<Datapoint>): set<string>
  {
    if |dps| == 0 then {}
    else (if IsNumeric(dps[0].value) then {dps[0].name} else {}) + NumericNames(dps[1..])
  }

  /** The total of a reading's integer and float values carried under `name`. */
  function NumericTotal(dps: seq<Datapoint>, name: string): real
  {
    if |dps| == 0 then 0.0
    else (if dps[0].name == name then AsReal(dps[0].value) else 0.0) + NumericTotal(dps[1..], name)
  }

  /** The loop of `addAverageReading` over a reading's data points, in order. */
  function FoldDatapoints(es: seq<Entry>, dps: seq<Datapoint>): (r: seq<Entry>)
    requires Sorted(es)
    ensures Sorted(r)
    ensures Names(r) == Names(es) + NumericNames(dps)
    ensures forall name :: Lookup(r, name) == Lookup(es, name) + NumericTotal(dps, name)
    decreases |dps|
  {
    if |dps| == 0 then es
    else
      FoldDatapoints(AddValue(es, dps[0]), dps[1..])
  }

  /** Every sum set to 0.0, every name kept in place. */
  function ZeroSums(es: seq<Entry>): (r: seq<Entry>)
    ensures |r| == |es|
    ensures forall i :: 0 <= i < |r| ==> r[i].name == es[i].name && r[i].sum == 0.0
    ensures Names(r) == Names(es)
    ensures forall name :: Lookup(r, name) == 0.0
  {
    if |es| == 0 then []
    else
      var r := [Entry(es[0].name, 0.0)] + ZeroSums(es[1..]);
      assert r[1..] == ZeroSums(es[1..]);
      r
  }

  /** In a sorted table indexing agrees with lookup: the entry at `i` is the only one with its name. */
  lemma {:induction false} LookupAt(es: seq<Entry>, i: int)
    requires Sorted(es) && 0 <= i < |es|
    ensures Lookup(es, es[i].name) == es[i].sum
    decreases i
  {
    if i > 0 {
      NameOrder.Irreflexive(es[0].name);
      assert NameOrder.Less(es[0].name, es[i].name);
      assert es[1..][i - 1] == es[i];
      LookupAt(es[1..], i - 1);
    }
  }

  /** `clearAverage`: every sum zeroed; names, count and last emission time kept. */
  function ClearAverage(a: Averager): (r: Averager)
    requires Sorted(a.sums)
    ensures Sorted(r.sums)
    ensures Names(r.sums) == Names(a.sums)
    ensures forall name :: Lookup(r.sums, name) == 0.0
    ensures r.count == a.count && r.lastSent == a.lastSent
  {
    Averager(ZeroSums(a.sums), a.count, a.lastSent)
  }

  /** What `averageReading` produces: the accumulator after emission and the average itself. */
  datatype Emission = Emission(acc: Averager, average: Reading)

  /**
   `averageReading`: one float data point per accumulated name, in ascending
   name order, each the name's sum divided by the count; the emitted reading
   carries the template's asset and both its timestamps. The table keeps its
   names with every sum zeroed and the count restarts at 0.
   */
  function AverageReading(a: Averager, template: Reading): (r: Emission)
    requires Sorted(a.sums) && a.count > 0
    ensures r.average.asset == template.asset
    ensures r.average.userTs == template.userTs && r.average.ingestTs == template.ingestTs
    ensures |r.average.dps| == |a.sums|
    ensures AverageOf(r.average.dps, a.sums, a.count)
    ensures Sorted(r.acc.sums) && Names(r.acc.sums) == Names(a.sums)
    ensures forall name :: Lookup(r.acc.sums, name) == 0.0
    ensures r.acc.count == 0 && r.acc.lastSent == a.lastSent
  {
    var dps := AverageDatapoints(a.sums, a.count);
    AverageDatapointsAverage(a.sums, a.count);
    var zeroed := ZeroSums(a.sums);
    assert Sorted(zeroed) by {
      forall i, j | 0 <= i < j < |zeroed| ensures NameOrder.Less(zeroed[i].name, zeroed[j].name) {
        assert zeroed[i].name == a.sums[i].name && zeroed[j].name == a.sums[j].name;
      }
    }
    Emission(Averager(zeroed, 0, a.lastSent),
             Reading(template.asset, template.userTs, template.ingestTs, dps))
  }

  /** One float data point per table entry, in table order: the entry's sum over `count`. */
  function AverageDatapoints(es: seq<Entry>, count: nat): (dps: seq<Datapoint>)
    requires count > 0
    ensures |dps| == |es|
    ensures forall i :: 0 <= i < |es| ==> dps[i].name == es[i].name
  {
    seq(|es|, i requires 0 <= i < |es| => Datapoint(es[i].name, Float(es[i].sum / count as real)))
  }

  lemma AverageDatapointsAverage(es: seq<Entry>, count: nat)
    requires Sorted(es) && count > 0
    ensures AverageOf(AverageDatapoints(es, count), es, count)
  {
    var dps := AverageDatapoints(es, count);
    forall i | 0 <= i < |dps|
      ensures dps[i].name in Names(es)
      ensures dps[i].value == Float(Lookup(es, dps[i].name) / count as real)
    {
      LookupAt(es, i);
      NamesIndex(es, dps[i].name);
    }
    forall name | name in Names(es) ensures exists i :: 0 <= i < |dps| && dps[i].name == name {
      NamesIndex(es, name);
      var i :| 0 <= i < |es| && es[i].name == name;
      assert dps[i].name == name;
    }
    forall i, j | 0 <= i < j < |dps| ensures NameOrder.Less(dps[i].name, dps[j].name) {
      assert dps[i].name == es[i].name && dps[j].name == es[j].name;
    }
  }

  /**
   `addAverageReading`: fold the reading's integer and float values into the
   sums, count it, and emit an average when its user timestamp is strictly
   past the last emission plus the interval; the emission time then becomes
   that timestamp.
   */
  function AddAverageReading(a: Averager, reading: Reading, interval: Timeval): (r: Folded)
    requires Sorted(a.sums)
    ensures Sorted(r.acc.sums)
    ensures Names(r.acc.sums) == Names(a.sums) + NumericNames(reading.dps)
    ensures 0 <= interval.usec <= MicrosPerSecond ==>
              (r.emitted.Some? <==> reading.userTs > a.lastSent + Micros(interval))
    ensures r.emitted.None? ==>
              && r.acc.count == a.count + 1
              && r.acc.lastSent == a.lastSent
              && forall name :: Lookup(r.acc.sums, name) == Lookup(a.sums, name) + NumericTotal(reading.dps, name)
    ensures r.emitted.Some? ==>
              && r.acc.count == 0
              && r.acc.lastSent == reading.userTs
              && (forall name :: Lookup(r.acc.sums, name) == 0.0)
              && r.emitted.value.asset == reading.asset
              && r.emitted.value.userTs == reading.userTs
              && r.emitted.value.ingestTs == reading.ingestTs
              && AveragesOf(r.emitted.value.dps, a.sums, reading.dps, a.count + 1)
  {
    var sums := FoldDatapoints(a.sums, reading.dps);
    var folded := Averager(sums, a.count + 1, a.lastSent);
    DeadlineExactWhenBounded(reading.userTs, a.lastSent, interval);
    if Due(reading.userTs, a.lastSent, interval) then
      var e := AverageReading(folded, reading);
      EmissionAverages(e.average.dps, sums, a.sums, reading.dps, a.count + 1);
      Folded(Averager(e.acc.sums, 0, reading.userTs), Some(e.average))
    else
      Folded(folded, None)
  }

  /** An average over the folded table is an average over the old table plus the reading. */
  lemma EmissionAverages(dps: seq<Datapoint>, table: seq<Entry>, before: seq<Entry>, added: seq<Datapoint>, count: nat)
    requires AverageOf(dps, table, count)
    requires Names(table) == Names(before) + NumericNames(added)
    requires forall name :: Lookup(table, name) == Lookup(before, name) + NumericTotal(added, name)
    ensures AveragesOf(dps, before, added, count)
  {
    forall i | 0 <= i < |dps|
      ensures dps[i].name in Names(before) + NumericNames(added)
      ensures dps[i].value == Float((Lookup(before, dps[i].name) + NumericTotal(added, dps[i].name)) / count as real)
    {
      var n := dps[i].name;
      assert n in Names(table);
      assert dps[i].value == Float(Lookup(table, n) / count as real);
      assert Lookup(table, n) == Lookup(before, n) + NumericTotal(added, n);
    }
    forall name | name in Names(before) + NumericNames(added)
      ensures exists i :: 0 <= i < |dps| && dps[i].name == name
    {
      assert name in Names(table);
    }
  }

  /** `dps` is the average of `table` over `count` readings: one float per name, in ascending order. */
  predicate AverageOf(dps: seq<Datapoint>, table: seq<Entry>, count: nat)
  {
    && count > 0
    && (forall i, j :: 0 <= i < j < |dps| ==> NameOrder.Less(dps[i].name, dps[j].name))
    && (forall i :: 0 <= i < |dps| ==>
          && dps[i].name in Names(table)
          && dps[i].value == Float(Lookup(table, dps[i].name) / count as real))
    && (forall name :: name in Names(table) ==> exists i :: 0 <= i < |dps| && dps[i].name == name)
  }

  /** `timercmp(t, timeradd(last, interval), >)`: an average is due at user timestamp `t`. */
  predicate Due(t: int, last: int, interval: Timeval)
  {
    TimerGreater(FromMicros(t), TimerAdd(FromMicros(last), interval))
  }

  lemma DeadlineExactWhenBounded(t: int, last: int, interval: Timeval)
    ensures 0 <= interval.usec <= MicrosPerSecond ==> (Due(t, last, interval) <==> t > last + Micros(interval))
  {
    if 0 <= interval.usec <= MicrosPerSecond {
      DeadlineExact(t, last, interval);
    }
  }

  /**
   `dps` is an emitted average over the sums `before` plus a reading's data
   points `added`, divided by `count`: one float per name, in ascending order.
   */
  predicate AveragesOf(dps: seq<Datapoint>, before: seq<Entry>, added: seq<Datapoint>, count: nat)
  {
    && count > 0
    && (forall i, j :: 0 <= i < j < |dps| ==> NameOrder.Less(dps[i].name, dps[j].name))
    && (forall i :: 0 <= i < |dps| ==>
          && dps[i].name in Names(before) + NumericNames(added)
          && dps[i].value == Float((Lookup(before, dps[i].name) + NumericTotal(added, dps[i].name)) / count as real))
    && (forall name :: name in Names(before) + NumericNames(added) ==>
          exists i :: 0 <= i < |dps| && dps[i].name == name)
  }
  /**
   Three readings with `v` = 10, 20 and 30 and a one-second interval, only the
   third past the deadline: the one emitted average has the single data point
   `v` = 20.0.
   */
  lemma AveragingExample(r1: Reading, r2: Reading, r3: Reading)
    requires r1.userTs == 100000 && r1.dps == [Datapoint("v", Int(10))]
    requires r2.userTs == 200000 && r2.dps == [Datapoint("v", Int(20))]
    requires r3.userTs == 1500000 && r3.dps == [Datapoint("v", Int(30))]
    ensures var f1 := AddAverageReading(Averager([], 0, 0), r1, Timeval(1, 0));
            var f2 := AddAverageReading(f1.acc, r2, Timeval(1, 0));
            var f3 := AddAverageReading(f2.acc, r3, Timeval(1, 0));
            && f1.emitted.None? && f2.emitted.None?
            && f3.emitted.Some? && f3.emitted.value.dps == [Datapoint("v", Float(20.0))]
            && f3.acc.count == 0 && f3.acc.lastSent == 1500000
  {
    var interval := Timeval(1, 0);
    assert Micros(interval) == 1000000;
    var f1 := AddAverageReading(Averager([], 0, 0), r1, interval);
    SingleValue(r1.dps, "v", 10);
    assert Names(f1.acc.sums) == {"v"} && Lookup(f1.acc.sums, "v") == 10.0 && f1.acc.count == 1;
    var f2 := AddAverageReading(f1.acc, r2, interval);
    SingleValue(r2.dps, "v", 20);
    assert Names(f2.acc.sums) == {"v"} && Lookup(f2.acc.sums, "v") == 30.0 && f2.acc.count == 2;
    var f3 := AddAverageReading(f2.acc, r3, interval);
    SingleValue(r3.dps, "v", 30);
    assert f3.emitted.Some?;
    OneNameAverage(f3.emitted.value.dps, f2.acc.sums, r3.dps, 3, "v", 20.0);
  }

  /**
   Clearing keeps the count, so the first average after a clear divides the
   new sums by the readings folded before it too: two readings, a clear, and
   one reading of `v` = 30 give `v` = 10.0, not 30.0.
   */
  lemma ClearedAverageKeepsOldCount(r: Reading)
    requires r.userTs == 2000000 && r.dps == [Datapoint("v", Int(30))]
    ensures var cleared := ClearAverage(Averager([Entry("v", 50.0)], 2, 0));
            var folded := AddAverageReading(cleared, r, Timeval(1, 0));
            && folded.emitted.Some?
            && folded.emitted.value.dps == [Datapoint("v", Float(10.0))]
  {
    var a := Averager([Entry("v", 50.0)], 2, 0);
    assert Sorted(a.sums);
    var cleared := ClearAverage(a);
    assert Names(a.sums) == {"v"};
    assert Names(cleared.sums) == {"v"} && Lookup(cleared.sums, "v") == 0.0 && cleared.count == 2;
    var folded := AddAverageReading(cleared, r, Timeval(1, 0));
    SingleValue(r.dps, "v", 30);
    assert Micros(Timeval(1, 0)) == 1000000;
    assert folded.emitted.Some?;
    OneNameAverage(folded.emitted.value.dps, cleared.sums, r.dps, 3, "v", 10.0);
  }

  lemma SingleValue(dps: seq<Datapoint>, name: string, v: int)
    requires dps == [Datapoint(name, Int(v))]
    ensures NumericNames(dps) == {name}
    ensures forall n :: NumericTotal(dps, n) == if n == name then v as real else 0.0
  {
  }

  /** An average over a single name is the one-element reading of that name. */
  lemma OneNameAverage(dps: seq<Datapoint>, before: seq<Entry>, added: seq<Datapoint>, count: nat, name: string, avg: real)
    requires AveragesOf(dps, before, added, count)
    requires Names(before) + NumericNames(added) == {name}
    requires (Lookup(before, name) + NumericTotal(added, name)) / count as real == avg
    ensures dps == [Datapoint(name, Float(avg))]
  {
    assert exists i :: 0 <= i < |dps| && dps[i].name == name;
    if |dps| > 1 {
      assert dps[0].name == name && dps[1].name == name;
      NameOrder.Irreflexive(name);
      assert false;
    }
    assert dps[0].name == name;
  }
}

=== FILE: evaluators.dfy ===
/**
 The expression evaluator's variable binding. An evaluator owns a fixed table
 of `MaxExpressionVariables` value slots; the first `|names|` of them are bound
 to the names found in the sample reading it was built from. The compiled
 expression itself is abstract: a `Compiler` turns expression text and the
 bound names into a function of the bound slot values, and the evaluator's
 verdict is that function's value being non-zero.
 */
module Evaluators {
  import opened Readings

  const MaxExpressionVariables: nat := 20

  /** Expression parsing and compilation, outside this model: text and names to a function of the slots. */
  type Compiler = (string, seq<string>) -> (seq<real> -> real)

  datatype Evaluator = Evaluator(text: string, names: seq<string>, slots: seq<real>)

  /** At most `MaxExpressionVariables` names, bound in pairs, over exactly that many slots. */
  predicate Valid(ev: Evaluator)
  {
    |ev.names| <= MaxExpressionVariables && |ev.names| % 2 == 0 && |ev.slots| == MaxExpressionVariables
  }

  /** The asset-qualified variable name `asset.name`. */
  function Qualified(asset: string, name: string): string
  {
    asset + "." + name
  }

  /** The names of the integer and float data points, in data-point order. */
  function NumericSequence(dps: seq<Datapoint>): (ns: seq<string>)
    ensures |ns| <= |dps|
  {
    if |dps| == 0 then []
    else (if IsNumeric(dps[0].value) then [dps[0].name] else []) + NumericSequence(dps[1..])
  }

  /** Each name followed by its asset-qualified form. */
  function Pairs(asset: string, ns: seq<string>): (r: seq<string>)
    ensures |r| == 2 * |ns|
  {
    if |ns| == 0 then [] else [ns[0], Qualified(asset, ns[0])] + Pairs(asset, ns[1..])
  }

  /** Position `2i` holds the `i`-th name and position `2i + 1` its qualified form. */
  lemma {:induction false} PairsIndex(asset: string, ns: seq<string>)
    ensures forall i :: 0 <= i < |ns| ==>
              Pairs(asset, ns)[2 * i] == ns[i] && Pairs(asset, ns)[2 * i + 1] == Qualified(asset, ns[i])
    decreases |ns|
  {
    if |ns| > 0 {
      PairsIndex(asset, ns[1..]);
      var r := Pairs(asset, ns);
      var rest := Pairs(asset, ns[1..]);
      assert r == [ns[0], Qualified(asset, ns[0])] + rest;
      forall i | 1 <= i < |ns| ensures r[2 * i] == ns[i] && r[2 * i + 1] == Qualified(asset, ns[i]) {
        assert r[2 * i] == rest[2 * (i - 1)] && r[2 * i + 1] == rest[2 * (i - 1) + 1];
        assert ns[1..][i - 1] == ns[i];
      }
    }
  }

  /** At most the first `n` elements. */
  function Take(ns: seq<string>, n: nat): (r: seq<string>)
    ensures |r| <= n
  {
    if |ns| <= n then ns else ns[..n]
  }

  /**
   The constructor's scan over the sample reading: each integer or float data
   point adds its bare and qualified names; the scan stops as soon as the
   table is full.
   */
  function BindNames(asset: string, dps: seq<Datapoint>, acc: seq<string>): (names: seq<string>)
    requires |acc| < MaxExpressionVariables && |acc| % 2 == 0
    ensures names == acc + Pairs(asset, Take(NumericSequence(dps), (MaxExpressionVariables - |acc|) / 2))
    decreases |dps|
  {
    if |dps| == 0 then acc
    else if IsNumeric(dps[0].value) then
      var next := acc + [dps[0].name, Qualified(asset, dps[0].name)];
      var names := if |next| == MaxExpressionVariables then next else BindNames(asset, dps[1..], next);
      BindNumeric(asset, dps, acc, names);
      names
    else
      assert NumericSequence(dps) == NumericSequence(dps[1..]);
      BindNames(asset, dps[1..], acc)
  }

  /** The numeric case of `BindNames`: its pair, then the rest of the scan or a full table. */
  lemma BindNumeric(asset: string, dps: seq<Datapoint>, acc: seq<string>, names: seq<string>)
    requires |dps| > 0 && IsNumeric(dps[0].value)
    requires |acc| < MaxExpressionVariables && |acc| % 2 == 0
    requires var next := acc + [dps[0].name, Qualified(asset, dps[0].name)];
             if |next| == MaxExpressionVariables then names == next
             else names == next + Pairs(asset, Take(NumericSequence(dps[1..]), (MaxExpressionVariables - |next|) / 2))
    ensures names == acc + Pairs(asset, Take(NumericSequence(dps), (MaxExpressionVariables - |acc|) / 2))
  {
    var n := dps[0].name;
    var rest := NumericSequence(dps[1..]);
    assert NumericSequence(dps) == [n] + rest;
    BindStep(asset, n, rest, acc, (MaxExpressionVariables - |acc|) / 2);
  }

  /** Binding one more numeric data point: its pair, then the pairs of the rest with one place fewer. */
  lemma BindStep(asset: string, n: string, rest: seq<string>, acc: seq<string>, k: nat)
    requires |acc| < MaxExpressionVariables && |acc| % 2 == 0 && k == (MaxExpressionVariables - |acc|) / 2
    ensures var next := acc + [n, Qualified(asset, n)];
            && |next| <= MaxExpressionVariables && |next| % 2 == 0
            && (MaxExpressionVariables - |next|) / 2 == k - 1
            && acc + Pairs(asset, Take([n] + rest, k)) == next + Pairs(asset, Take(rest, k - 1))
            && (|next| == MaxExpressionVariables ==> next == acc + Pairs(asset, Take([n] + rest, k)))
  {
    PairsTakeCons(asset, n, rest, k);
    var pair := [n, Qualified(asset, n)];
    var tail := Pairs(asset, Take(rest, k - 1));
    ConcatAssoc(acc, pair, tail);
    if |acc| + 2 == MaxExpressionVariables {
      assert tail == [];
      assert (acc + pair) + tail == acc + pair;
    }
  }

  lemma ConcatAssoc(a: seq<string>, b: seq<string>, c: seq<string>)
    ensures a + (b + c) == (a + b) + c
  {
  }

  lemma PairsTakeCons(asset: string, n: string, rest: seq<string>, k: nat)
    requires k >= 1
    ensures Pairs(asset, Take([n] + rest, k)) == [n, Qualified(asset, n)] + Pairs(asset, Take(rest, k - 1))
  {
    var t := Take([n] + rest, k);
    assert t == [n] + Take(rest, k - 1);
    assert t[1..] == Take(rest, k - 1);
  }

  /**
   A fresh evaluator: names bound from the sample reading, the first ten
   integer or float data points at most, each as bare and qualified name.
   The slots start at 0.0.
   */
  function Build(sample: Reading, text: string): (ev: Evaluator)
    ensures Valid(ev) && ev.text == text
    ensures ev.names == Pairs(sample.asset, Take(NumericSequence(sample.dps), MaxExpressionVariables / 2))
    ensures forall i :: 0 <= i < |ev.slots| ==> ev.slots[i] == 0.0
  {
    Evaluator(text, BindNames(sample.asset, sample.dps, []), seq(MaxExpressionVariables, _ => 0.0))
  }

  /**
   At most ten data points are bound, two names each: all the integer and
   float ones when there are no more than ten, otherwise the first ten.
   */
  lemma {:induction false} BindsAtMostTen(sample: Reading, text: string)
    ensures var numeric := |NumericSequence(sample.dps)|;
            |Build(sample, text).names| == 2 * (if numeric <= 10 then numeric else 10)
    ensures forall i :: 0 <= i < |Build(sample, text).names| / 2 ==>
              Build(sample, text).names[2 * i] == NumericSequence(sample.dps)[i]
  {
    var ns := NumericSequence(sample.dps);
    var t := Take(ns, MaxExpressionVariables / 2);
    PairsIndex(sample.asset, t);
    assert |t| == if |ns| <= 10 then |ns| else 10;
    assert forall i :: 0 <= i < |t| ==> t[i] == ns[i];
  }

  /** Slot name `name` is set by data point `dp` of a reading from `asset`. */
  predicate Matches(name: string, asset: string, dp: Datapoint)
  {
    name == dp.name || name == Qualified(asset, dp.name)
  }

  /** One data point of `evaluate`: every bound slot whose name it matches takes its value. */
  function WriteSlots(names: seq<string>, slots: seq<real>, asset: string, dp: Datapoint): (r: seq<real>)
    requires |names| <= |slots|
    ensures |r| == |slots|
    ensures forall i :: 0 <= i < |names| && Matches(names[i], asset, dp) ==> r[i] == AsReal(dp.value)
    ensures forall i :: 0 <= i < |slots| && (i >= |names| || !Matches(names[i], asset, dp)) ==> r[i] == slots[i]
  {
    seq(|slots|, i requires 0 <= i < |slots| =>
      if i < |names| && Matches(names[i], asset, dp) then AsReal(dp.value) else slots[i])
  }

  /**
   The data-point loop of `evaluate`, one write after another in order. A
   slot ends with the value of the last data point that matches its name, and
   keeps its old value when none does.
   */
  function Rebind(names: seq<string>, slots: seq<real>, asset: string, dps: seq<Datapoint>): (r: seq<real>)
    requires |names| <= |slots|
    ensures |r| == |slots|
    ensures forall i :: 0 <= i < |slots| && (i >= |names| || forall j :: 0 <= j < |dps| ==> !Matches(names[i], asset, dps[j]))
              ==> r[i] == slots[i]
    ensures forall i, j :: 0 <= i < |names| && 0 <= j < |dps| && Matches(names[i], asset, dps[j])
              && (forall k :: j < k < |dps| ==> !Matches(names[i], asset, dps[k]))
              ==> r[i] == AsReal(dps[j].value)
    decreases |dps|
  {
    if |dps| == 0 then slots
    else
      var init := dps[..|dps| - 1];
      assert forall j :: 0 <= j < |init| ==> init[j] == dps[j];
      WriteSlots(names, Rebind(names, slots, asset, init), asset, dps[|dps| - 1])
  }

  /** The index of the last data point matching `name`, or -1 if none does. */
  function LastMatch(name: string, asset: string, dps: seq<Datapoint>): (j: int)
    ensures -1 <= j < |dps|
    ensures j == -1 ==> forall k :: 0 <= k < |dps| ==> !Matches(name, asset, dps[k])
    ensures j >= 0 ==> Matches(name, asset, dps[j]) && forall k :: j < k < |dps| ==> !Matches(name, asset, dps[k])
    decreases |dps|
  {
    if |dps| == 0 then -1
    else if Matches(name, asset, dps[|dps| - 1]) then |dps| - 1
    else
      var init := dps[..|dps| - 1];
      assert forall k :: 0 <= k < |init| ==> init[k] == dps[k];
      LastMatch(name, asset, init)
  }

  /** Rebinding with the same reading twice leaves the slots as rebinding once. */
  lemma RebindIdempotent(names: seq<string>, slots: seq<real>, asset: string, dps: seq<Datapoint>)
    requires |names| <= |slots|
    ensures Rebind(names, Rebind(names, slots, asset, dps), asset, dps) == Rebind(names, slots, asset, dps)
  {
    var once := Rebind(names, slots, asset, dps);
    var twice := Rebind(names, once, asset, dps);
    forall i | 0 <= i < |slots| ensures twice[i] == once[i] {
      if i < |names| {
        var j := LastMatch(names[i], asset, dps);
        if j >= 0 {
          assert twice[i] == AsReal(dps[j].value) == once[i];
        }
      }
    }
  }

  /**
   `evaluate`: rebind the slots from the reading's data points (a value that
   is neither integer nor float writes 0.0), then apply the compiled
   expression to the bound slots; the verdict is "non-zero".
   */
  function Evaluate(ev: Evaluator, reading: Reading, compile: Compiler): (r: (Evaluator, bool))
    requires Valid(ev)
    ensures Valid(r.0) && r.0.text == ev.text && r.0.names == ev.names
    ensures forall i :: |ev.names| <= i < MaxExpressionVariables ==> r.0.slots[i] == ev.slots[i]
    ensures forall i :: 0 <= i < |ev.names| && LastMatch(ev.names[i], reading.asset, reading.dps) == -1
              ==> r.0.slots[i] == ev.slots[i]
    ensures forall i :: 0 <= i < |ev.names| && LastMatch(ev.names[i], reading.asset, reading.dps) >= 0
              ==> r.0.slots[i] == AsReal(reading.dps[LastMatch(ev.names[i], reading.asset, reading.dps)].value)
    ensures r.1 <==> compile(ev.text, ev.names)(r.0.slots[..|ev.names|]) != 0.0
  {
    var slots := Rebind(ev.names, ev.slots, reading.asset, reading.dps);
    var ev' := Evaluator(ev.text, ev.names, slots);
    (ev', compile(ev.text, ev.names)(slots[..|ev.names|]) != 0.0)
  }

  /** Evaluating the same reading again changes nothing and gives the same verdict. */
  lemma EvaluateIdempotent(ev: Evaluator, reading: Reading, compile: Compiler)
    requires Valid(ev)
    ensures Evaluate(Evaluate(ev, reading, compile).0, reading, compile) == Evaluate(ev, reading, compile)
  {
    RebindIdempotent(ev.names, ev.slots, reading.asset, reading.dps);
  }

  /** A data point that is neither integer nor float still overwrites the slots it matches, with 0.0. */
  lemma NonNumericWritesZero(ev: Evaluator, reading: Reading, compile: Compiler, i: nat)
    requires Valid(ev) && i < |ev.names|
    requires LastMatch(ev.names[i], reading.asset, reading.dps) >= 0
    requires !IsNumeric(reading.dps[LastMatch(ev.names[i], reading.asset, reading.dps)].value)
    ensures Evaluate(ev, reading, compile).0.slots[i] == 0.0
  {
  }
}

=== FILE: filter_properties.dfy ===
/**
 Properties of the rate filter's ingestion as a whole: how batches compose,
 which readings pass through unchanged, what is dropped, when a reconfiguration
 takes effect, and the livelock the two handlers can enter.
 */
module FilterProperties {
  import opened Readings
  import opened Timevals
  import opened Rate
  import opened Averaging
  import opened Pretrigger
  import opened Evaluators
  import opened RateFilter

  /** Continue an outcome with the handlers on a further batch. */
  function Then(o: Outcome, b: seq<Reading>, compile: Compiler): (r: Outcome)
    requires o.Done? ==> WellFormed(o.state) && o.state.triggerEval.Some? && o.state.preTrigger >= 0
  {
    match o
    case Done(s, out) => Prepend(out, Run(s, b, compile))
    case Diverges => Diverges
  }

  /** Continue an outcome with a further call of `ingest`. */
  function ThenIngest(o: Outcome, b: seq<Reading>, compile: Compiler): (r: Outcome)
    requires o.Done? ==> WellFormed(o.state) && o.state.triggerEval.Some? && o.state.preTrigger >= 0
                         && !o.state.pendingReconfigure
  {
    match o
    case Done(s, out) => Prepend(out, Ingest(s, b, compile))
    case Diverges => Diverges
  }

  lemma PrependThen(out: seq<Reading>, o: Outcome, b: seq<Reading>, compile: Compiler)
    requires o.Done? ==> WellFormed(o.state) && o.state.triggerEval.Some? && o.state.preTrigger >= 0
    ensures Then(Prepend(out, o), b, compile) == Prepend(out, Then(o, b, compile))
  {
    match o
    case Diverges =>
    case Done(s, mid) =>
      assert Prepend(out, o) == Done(s, out + mid);
      PrependPrepend(out, mid, Run(s, b, compile));
  }

  /** Prefixing twice is prefixing with the concatenation. */
  lemma PrependPrepend(x: seq<Reading>, y: seq<Reading>, o: Outcome)
    ensures Prepend(x + y, o) == Prepend(x, Prepend(y, o))
  {
    if o.Done? {
      assert (x + y) + o.out == x + (y + o.out);
    }
  }

  /**
   The handlers process a batch reading by reading: handling `a + b` is
   handling `a` and then, from the state reached, `b`. Where one batch ends
   does not change what is output.
   */
  lemma {:induction false} RunSplit(f: Filter, a: seq<Reading>, b: seq<Reading>, compile: Compiler)
    requires WellFormed(f) && f.triggerEval.Some? && f.preTrigger >= 0
    ensures Run(f, a + b, compile) == Then(Run(f, a, compile), b, compile)
    decreases |a|, if f.triggered then 0 else 1
  {
    if |a| == 0 {
      assert a + b == b;
      var o := Run(f, b, compile);
      if o.Done? {
        assert [] + o.out == o.out;
      }
    } else {
      assert (a + b)[0] == a[0];
      assert (a + b)[1..] == a[1..] + b;
      if !f.triggered {
        match UntriggeredStep(f, a[0], compile)
        case Stay(g, out) =>
          RunSplit(g, a[1..], b, compile);
          PrependThen(out, Run(g, a[1..], compile), b, compile);
        case Switch(g, out) =>
          RunSplit(g, a, b, compile);
          PrependThen(out, Run(g, a, compile), b, compile);
      } else {
        match TriggeredStep(f, a[0], compile)
        case Stay(g, out) =>
          RunSplit(g, a[1..], b, compile);
          PrependThen(out, Run(g, a[1..], compile), b, compile);
        case Switch(g, _) =>
          match UntriggeredStep(g, a[0], compile)
          case Stay(h, out) =>
            RunSplit(h, a[1..], b, compile);
            PrependThen(out, Run(h, a[1..], compile), b, compile);
          case Switch(_, _) =>
      }
    }
  }

  /**
   Two calls of `ingest` do what one call on the concatenated batch does: the
   evaluators built from the first batch's first reading serve the second.
   */
  lemma IngestSplit(f: Filter, a: seq<Reading>, b: seq<Reading>, compile: Compiler)
    requires WellFormed(f) && f.preTrigger >= 0
    requires |a| > 0 || (!f.pendingReconfigure && f.triggerEval.Some?)
    ensures Ingest(f, a + b, compile) == ThenIngest(Ingest(f, a, compile), b, compile)
  {
    if |a| > 0 {
      assert (a + b)[0] == a[0];
    } else {
      assert a + b == b;
    }
    var p := Prepare(f, a);
    assert Prepare(f, a + b) == p;
    RunSplit(p, a, b, compile);
    var o := Run(p, a, compile);
    if o.Done? {
      assert Prepare(o.state, b) == o.state;
    }
  }

  /** The readings whose asset is on the exclusion list, in order. */
  function ExcludedOf(exclusions: seq<string>, batch: seq<Reading>): (r: seq<Reading>)
    ensures |r| <= |batch|
    ensures forall x :: x in r <==> x in batch && x.asset in exclusions
  {
    if |batch| == 0 then []
    else
      var rest := ExcludedOf(exclusions, batch[1..]);
      assert forall x :: x in batch <==> x == batch[0] || x in batch[1..];
      (if batch[0].asset in exclusions then [batch[0]] else []) + rest
  }

  /**
   The trigger, evaluated reading after reading with its slots carried along,
   stays quiet on every reading of the batch that is not excluded.
   */
  predicate TriggerQuiet(ev: Evaluator, exclusions: seq<string>, batch: seq<Reading>, compile: Compiler)
    requires Evaluators.Valid(ev)
    decreases |batch|
  {
    |batch| == 0 ||
    if batch[0].asset in exclusions then TriggerQuiet(ev, exclusions, batch[1..], compile)
    else
      var (next, fired) := Evaluate(ev, batch[0], compile);
      !fired && TriggerQuiet(next, exclusions, batch[1..], compile)
  }

  /** The untrigger, evaluated reading after reading with its slots carried along, never fires. */
  predicate UntriggerQuiet(ev: Evaluator, batch: seq<Reading>, compile: Compiler)
    requires Evaluators.Valid(ev)
    decreases |batch|
  {
    |batch| == 0 ||
    var (next, fired) := Evaluate(ev, batch[0], compile);
    !fired && UntriggerQuiet(next, batch[1..], compile)
  }

  /**
   Untriggered with averaging off and a quiet trigger, the output is exactly
   the excluded readings, in order: every other reading is dropped (kept only
   in the pre-trigger buffer). The state stays untriggered and the sums are
   untouched.
   */
  lemma {:induction false} QuietDropsAllButExcluded(f: Filter, batch: seq<Reading>, compile: Compiler)
    requires WellFormed(f) && f.triggerEval.Some? && f.preTrigger >= 0 && !f.triggered
    requires !AveragingEnabled(f.rate)
    requires TriggerQuiet(f.triggerEval.value, f.exclusions, batch, compile)
    ensures var o := Run(f, batch, compile);
            && o.Done?
            && o.out == ExcludedOf(f.exclusions, batch)
            && !o.state.triggered
            && o.state.avg == f.avg
            && o.state.untriggerEval == f.untriggerEval
    decreases |batch|
  {
    if |batch| > 0 {
      var st := UntriggeredStep(f, batch[0], compile);
      assert st.Stay?;
      QuietDropsAllButExcluded(st.state, batch[1..], compile);
      if batch[0].asset in f.exclusions {
        assert st.out == [batch[0]];
      } else {
        assert st.out == [];
      }
    }
  }

  /**
   Untriggered, a batch whose every asset is excluded is forwarded unchanged
   and leaves the filter exactly as it was: no evaluation, no buffering, no
   averaging.
   */
  lemma {:induction false} ExcludedPassThrough(f: Filter, batch: seq<Reading>, compile: Compiler)
    requires WellFormed(f) && f.triggerEval.Some? && f.preTrigger >= 0 && !f.triggered
    requires forall i :: 0 <= i < |batch| ==> batch[i].asset in f.exclusions
    ensures Run(f, batch, compile) == Done(f, batch)
    decreases |batch|
  {
    if |batch| > 0 {
      assert batch[0].asset in f.exclusions;
      assert forall i :: 0 <= i < |batch[1..]| ==> batch[1..][i] == batch[i + 1];
      ExcludedPassThrough(f, batch[1..], compile);
      assert [batch[0]] + batch[1..] == batch;
    }
  }

  /**
   In either state, a batch of excluded assets is output unchanged. Triggered,
   a reading on which the untrigger fires is handed to the untriggered
   handler, which forwards it as excluded without evaluating the trigger.
   */
  lemma {:induction false} ExcludedPassThroughAnyState(f: Filter, batch: seq<Reading>, compile: Compiler)
    requires WellFormed(f) && f.triggerEval.Some? && f.preTrigger >= 0
    requires forall i :: 0 <= i < |batch| ==> batch[i].asset in f.exclusions
    ensures Run(f, batch, compile).Done? && Run(f, batch, compile).out == batch
    decreases |batch|
  {
    if |batch| > 0 {
      var r := batch[0];
      assert r.asset in f.exclusions;
      assert forall i :: 0 <= i < |batch[1..]| ==> batch[1..][i] == batch[i + 1];
      assert [r] + batch[1..] == batch;
      if !f.triggered {
        assert UntriggeredStep(f, r, compile) == Stay(f, [r]);
        ExcludedPassThroughAnyState(f, batch[1..], compile);
      } else {
        var st := TriggeredStep(f, r, compile);
        if st.Stay? {
          assert Run(f, batch, compile) == Prepend([r], Run(st.state, batch[1..], compile));
          ExcludedPassThroughAnyState(st.state, batch[1..], compile);
        } else {
          assert UntriggeredStep(st.state, r, compile) == Stay(st.state, [r]);
          assert Run(f, batch, compile) == Prepend([r], Run(st.state, batch[1..], compile));
          ExcludedPassThroughAnyState(st.state, batch[1..], compile);
        }
      }
    }
  }

  /**
   Triggered, while the untrigger stays quiet, every reading is forwarded, in
   order, exclusions or not; the buffer, the sums and the trigger evaluator
   are untouched.
   */
  lemma {:induction false} TriggeredForwardsAll(f: Filter, batch: seq<Reading>, compile: Compiler)
    requires WellFormed(f) && f.triggerEval.Some? && f.preTrigger >= 0 && f.triggered
    requires UntriggerQuiet(f.untriggerEval.value, batch, compile)
    ensures var o := Run(f, batch, compile);
            && o.Done? && o.out == batch && o.state.triggered
            && o.state.buffer == f.buffer && o.state.avg == f.avg
            && o.state.triggerEval == f.triggerEval
    decreases |batch|
  {
    if |batch| > 0 {
      var st := TriggeredStep(f, batch[0], compile);
      assert st.Stay?;
      TriggeredForwardsAll(st.state, batch[1..], compile);
      assert [batch[0]] + batch[1..] == batch;
    }
  }

  /**
   A trigger on the first reading of a batch: the pre-trigger buffer goes out
   first, then the triggering reading and everything after it, unchanged, as
   long as the untrigger stays quiet; the buffer is left empty.
   */
  lemma TriggerThenForward(f: Filter, batch: seq<Reading>, compile: Compiler)
    requires WellFormed(f) && f.triggerEval.Some? && f.preTrigger >= 0 && !f.triggered
    requires |batch| > 0 && UntriggeredStep(f, batch[0], compile).Switch?
    requires UntriggerQuiet(f.untriggerEval.value, batch, compile)
    ensures var o := Run(f, batch, compile);
            && o.Done?
            && o.out == SendPretrigger(f.buffer, f.pretriggerFilter, batch[0]) + batch
            && o.state.triggered && o.state.buffer == []
  {
    var g := UntriggeredStep(f, batch[0], compile).state;
    TriggeredForwardsAll(g, batch, compile);
  }

  lemma {:induction false} ZeroSumsIdempotent(es: seq<Entry>)
    ensures ZeroSums(ZeroSums(es)) == ZeroSums(es)
  {
    var once := ZeroSums(es);
    var twice := ZeroSums(once);
    assert |twice| == |once|;
    forall i | 0 <= i < |once| ensures twice[i] == once[i] {
    }
  }

  /**
   The livelock. When the untrigger fires on a reading and, handled again
   untriggered, the trigger fires on it too, the source hands that same
   reading back and forth without end: evaluation with the same reading is
   idempotent, so one more round trip returns to exactly the same state and
   outputs nothing. `Run` reports this as `Diverges`.
   */
  lemma LivelockCycle(f: Filter, r: Reading, compile: Compiler)
    requires WellFormed(f) && f.triggerEval.Some? && f.preTrigger >= 0 && f.triggered
    requires TriggeredStep(f, r, compile).Switch?
    requires UntriggeredStep(TriggeredStep(f, r, compile).state, r, compile).Switch?
    ensures Run(f, [r], compile) == Diverges
    ensures var g := UntriggeredStep(TriggeredStep(f, r, compile).state, r, compile).state;
            var h := TriggeredStep(g, r, compile);
            && h.Switch? && h.out == []
            && UntriggeredStep(h.state, r, compile) == Switch(g, [])
  {
    var g1 := TriggeredStep(f, r, compile).state;
    var g := UntriggeredStep(g1, r, compile).state;
    EvaluateIdempotent(f.untriggerEval.value, r, compile);
    EvaluateIdempotent(f.triggerEval.value, r, compile);
    var h := TriggeredStep(g, r, compile);
    assert h.Switch?;
    assert h.state == g.(triggered := false);
    ZeroSumsIdempotent(f.avg.sums);
    assert ClearAverage(g.avg) == g.avg;
  }

  /** In state `g`, reading `r` fires the untrigger and then, handled again untriggered, the trigger. */
  predicate Bounces(g: Filter, r: Reading, compile: Compiler)
  {
    && WellFormed(g) && g.triggerEval.Some? && g.preTrigger >= 0 && g.triggered
    && TriggeredStep(g, r, compile).Switch?
    && UntriggeredStep(TriggeredStep(g, r, compile).state, r, compile).Switch?
  }

  /**
   One reading diverges exactly when it bounces in the state it meets:
   triggered, in that state; untriggered, in the state its trigger firing
   leads to.
   */
  lemma DivergesOneIff(g: Filter, r: Reading, compile: Compiler)
    requires WellFormed(g) && g.triggerEval.Some? && g.preTrigger >= 0
    ensures Run(g, [r], compile).Diverges? <==>
              if g.triggered then Bounces(g, r, compile)
              else UntriggeredStep(g, r, compile).Switch? && Bounces(UntriggeredStep(g, r, compile).state, r, compile)
  {
    assert [r][1..] == [];
    if g.triggered {
      DivergesOneTriggered(g, r, compile);
    } else {
      var st := UntriggeredStep(g, r, compile);
      if st.Switch? {
        assert Run(g, [r], compile) == Prepend(st.out, Run(st.state, [r], compile));
        DivergesOneTriggered(st.state, r, compile);
      } else {
        assert Run(g, [r], compile) == Prepend(st.out, Run(st.state, [], compile));
      }
    }
  }

  /** The triggered case of `DivergesOneIff`. */
  lemma DivergesOneTriggered(g: Filter, r: Reading, compile: Compiler)
    requires WellFormed(g) && g.triggerEval.Some? && g.preTrigger >= 0 && g.triggered
    ensures Run(g, [r], compile).Diverges? <==> Bounces(g, r, compile)
  {
    assert [r][1..] == [];
    var st := TriggeredStep(g, r, compile);
    if st.Stay? {
      assert Run(g, [r], compile) == Prepend(st.out, Run(st.state, [], compile));
    } else {
      var back := UntriggeredStep(st.state, r, compile);
      if back.Stay? {
        assert Run(g, [r], compile) == Prepend(back.out, Run(back.state, [], compile));
      }
    }
  }

  /** Reading `i` of `batch` is reached, and diverges from the state reached. */
  ghost predicate DivergesAt(f: Filter, batch: seq<Reading>, i: int, compile: Compiler)
    requires WellFormed(f) && f.triggerEval.Some? && f.preTrigger >= 0
  {
    && 0 <= i < |batch| && Run(f, batch[..i], compile).Done?
    && Run(Run(f, batch[..i], compile).state, [batch[i]], compile).Diverges?
  }

  /**
   `Diverges` arises at one reading of the batch, in the state the readings
   before it lead to: the prefix before it completes, and that one reading
   diverges from the state reached (with `DivergesOneIff`, it bounces there).
   */
  lemma {:induction false} DivergesAtReading(f: Filter, batch: seq<Reading>, compile: Compiler)
    requires WellFormed(f) && f.triggerEval.Some? && f.preTrigger >= 0
    ensures Run(f, batch, compile).Diverges? ==> exists i :: DivergesAt(f, batch, i, compile)
    decreases |batch|
  {
    if |batch| > 0 && Run(f, batch, compile).Diverges? {
      var n := |batch| - 1;
      DivergesLast(f, batch, compile);
      if Run(f, batch[..n], compile).Diverges? {
        DivergesAtReading(f, batch[..n], compile);
        var i :| DivergesAt(f, batch[..n], i, compile);
        DivergesAtPrefix(f, batch, n, i, compile);
      }
    }
  }

  /** Splitting off the last reading: a divergent batch whose prefix completes diverges at its last reading. */
  lemma DivergesLast(f: Filter, batch: seq<Reading>, compile: Compiler)
    requires WellFormed(f) && f.triggerEval.Some? && f.preTrigger >= 0 && |batch| > 0
    ensures Run(f, batch, compile).Diverges? && Run(f, batch[..|batch| - 1], compile).Done? ==>
              DivergesAt(f, batch, |batch| - 1, compile)
  {
    var n := |batch| - 1;
    assert batch[..n] + [batch[n]] == batch;
    RunSplit(f, batch[..n], [batch[n]], compile);
  }

  /** A divergence point of a prefix is one of the whole batch. */
  lemma DivergesAtPrefix(f: Filter, batch: seq<Reading>, n: int, i: int, compile: Compiler)
    requires WellFormed(f) && f.triggerEval.Some? && f.preTrigger >= 0
    requires 0 <= n <= |batch|
    ensures DivergesAt(f, batch[..n], i, compile) ==> DivergesAt(f, batch, i, compile)
  {
    if 0 <= i < n {
      assert batch[..n][..i] == batch[..i];
      assert batch[..n][i] == batch[i];
    }
  }

  /**
   A reconfiguration applies the new texts but keeps the old evaluators; the
   next `ingest` with a non-empty batch rebuilds both from that batch's first
   reading with the new texts, and clears the flag.
   */
  lemma RebuildOnNextIngest(f: Filter, c: Config, batch: seq<Reading>)
    requires WellFormed(f) && |batch| > 0
    ensures Reconfigure(f, c).triggerEval == f.triggerEval
    ensures var p := Prepare(Reconfigure(f, c), batch);
            && p.triggerEval == Some(Build(batch[0], c.trigger))
            && p.untriggerEval == Some(Build(batch[0], UntriggerText(c.trigger, c.untrigger)))
            && !p.pendingReconfigure
  {
  }

  /**
   The pending flag before the first build is never observed: with no
   evaluators yet, `ingest` builds them either way.
   */
  lemma PendingUnobservedBeforeBuild(f: Filter, batch: seq<Reading>)
    requires WellFormed(f) && f.triggerEval.None? && |batch| > 0
    ensures Prepare(f.(pendingReconfigure := true), batch) == Prepare(f.(pendingReconfigure := false), batch)
  {
  }

  /**
   A trigger and release keep the count of readings averaged before the
   trigger: the next average divides sums gathered after the release by that
   old count plus the new readings.
   */
  lemma TriggerKeepsCount(f: Filter, r: Reading, compile: Compiler)
    requires WellFormed(f) && f.triggerEval.Some? && f.preTrigger >= 0 && !f.triggered
    requires UntriggeredStep(f, r, compile).Switch?
    ensures UntriggeredStep(f, r, compile).state.avg.count == f.avg.count
    ensures forall name :: Lookup(UntriggeredStep(f, r, compile).state.avg.sums, name) == 0.0
  {
  }
}

=== FILE: name_order.dfy ===
/**
 The ordering `std::map<std::string, ...>` keeps its keys in: lexicographic
 comparison, character by character, with a proper prefix before its
 extensions.
 */
module NameOrder {

  predicate Less(a: string, b: string)
    decreases |a|
  {
    if |a| == 0 then |b| > 0
    else if |b| == 0 then false
    else a[0] < b[0] || (a[0] == b[0] && Less(a[1..], b[1..]))
  }

  lemma {:induction false} Irreflexive(a: string)
    ensures !Less(a, a)
    decreases |a|
  {
    if |a| > 0 {
      Irreflexive(a[1..]);
    }
  }

  lemma {:induction false} Asymmetric(a: string, b: string)
    ensures Less(a, b) ==> !Less(b, a)
    decreases |a|
  {
    if |a| > 0 && |b| > 0 {
      Asymmetric(a[1..], b[1..]);
    }
  }

  lemma {:induction false} Transitive(a: string, b: string, c: string)
    requires Less(a, b) && Less(b, c)
    ensures Less(a, c)
    decreases |a|
  {
    if |a| > 0 && a[0] == b[0] && b[0] == c[0] {
      Transitive(a[1..], b[1..], c[1..]);
    }
  }

  lemma {:induction false} Total(a: string, b: string)
    ensures a == b || Less(a, b) || Less(b, a)
    decreases |a|
  {
    if |a| > 0 && |b| > 0 && a[0] == b[0] {
      Total(a[1..], b[1..]);
      if a[1..] == b[1..] {
        assert a == [a[0]] + a[1..] && b == [b[0]] + b[1..];
      }
    }
  }
}

=== FILE: pretrigger.dfy ===
/**
 The pre-trigger buffer: copies of the readings seen while untriggered, oldest
 first, aged out by user timestamp on every insert, and drained to the output
 when the trigger fires — either wholesale or keeping only the entries whose
 filter data point equals the triggering reading's.
 */
module Pretrigger {
  import opened Readings
  import opened Timevals

  /** The window in milliseconds as the `timeval` `t2` of `bufferPretrigger`. */
  function WindowTimeval(window: int): (t: Timeval)
    requires window >= 0
    ensures Normalised(t)
    ensures Micros(t) == window * 1000
  {
    Timeval(window / 1000, (window % 1000) * 1000)
  }

  /** `timercmp(timersub(now, ts), t2, >)`: an entry stamped `ts` is older than the window. */
  predicate Expired(now: int, ts: int, window: int)
    requires window >= 0
  {
    TimerGreater(TimerSub(FromMicros(now), FromMicros(ts)), WindowTimeval(window))
  }

  lemma ExpiredExact(now: int, ts: int, window: int)
    requires window >= 0
    ensures Expired(now, ts, window) <==> now - ts > window * 1000
  {
    AgeExact(now, ts, WindowTimeval(window));
  }

  /**
   The eviction loop: pop the front while it is older than the window. The
   age test is written in microseconds, which `ExpiredExact` shows is the
   source's `timeval` test. The last entry is the reading just appended
   (stamped `now`), which is never older than a non-negative window, so the
   loop stops on a non-empty buffer.
   */
  function Evict(buffer: seq<Reading>, now: int, window: int): (r: seq<Reading>)
    requires window >= 0 && |buffer| > 0 && buffer[|buffer| - 1].userTs == now
    ensures 0 < |r| <= |buffer|
    ensures r == buffer[|buffer| - |r|..]
    ensures forall j :: 0 <= j < |buffer| - |r| ==> now - buffer[j].userTs > window * 1000
    ensures now - r[0].userTs <= window * 1000
    decreases |buffer|
  {
    if |buffer| > 1 && now - buffer[0].userTs > window * 1000 then
      var r := Evict(buffer[1..], now, window);
      assert buffer[1..][|buffer| - 1 - |r|..] == buffer[|buffer| - |r|..];
      assert forall j :: 1 <= j < |buffer| - |r| ==> buffer[j] == buffer[1..][j - 1];
      r
    else
      buffer
  }

  /**
   `bufferPretrigger`: nothing when the window is 0; otherwise append the
   reading and evict from the front every entry strictly older than the window
   (in microseconds, `window * 1000`), stopping at the first that is not.
   */
  function BufferPretrigger(buffer: seq<Reading>, reading: Reading, window: int): (r: seq<Reading>)
    requires window >= 0
    ensures window == 0 ==> r == buffer
    ensures window > 0 ==>
              && 0 < |r| <= |buffer| + 1
              && r[|r| - 1] == reading
              && r == (buffer + [reading])[|buffer| + 1 - |r|..]
              && (forall j :: 0 <= j < |buffer| + 1 - |r| ==> reading.userTs - buffer[j].userTs > window * 1000)
              && reading.userTs - r[0].userTs <= window * 1000
  {
    if window == 0 then buffer
    else
      var appended := buffer + [reading];
      var r := Evict(appended, reading.userTs, window);
      assert forall j :: 0 <= j < |buffer| ==> appended[j] == buffer[j];
      r
  }

  /** User timestamps never decrease along the sequence. */
  predicate InTimeOrder(rs: seq<Reading>)
  {
    forall i, j :: 0 <= i < j < |rs| ==> rs[i].userTs <= rs[j].userTs
  }

  /**
   When readings arrive in timestamp order, every buffered entry lies within
   the window of the newest one, and the buffer stays in order.
   */
  lemma WindowInvariant(buffer: seq<Reading>, reading: Reading, window: int)
    requires window > 0
    requires InTimeOrder(buffer + [reading])
    ensures var r := BufferPretrigger(buffer, reading, window);
            && InTimeOrder(r)
            && forall i :: 0 <= i < |r| ==> reading.userTs - r[i].userTs <= window * 1000
  {
    var appended := buffer + [reading];
    var r := BufferPretrigger(buffer, reading, window);
    var k := |buffer| + 1 - |r|;
    assert r == appended[k..];
    assert reading.userTs - r[0].userTs <= window * 1000;
    SuffixInTimeOrder(appended, k);
    assert InTimeOrder(r);
  }

  lemma SuffixInTimeOrder(rs: seq<Reading>, k: nat)
    requires InTimeOrder(rs) && k <= |rs|
    ensures InTimeOrder(rs[k..])
  {
    var r := rs[k..];
    forall i, j | 0 <= i < j < |r| ensures r[i].userTs <= r[j].userTs {
      assert r[i] == rs[k + i] && r[j] == rs[k + j];
    }
  }

  /**
   Out of order, an entry far older than the window can survive: eviction
   stops at the first entry still inside the window.
   */
  lemma OutOfOrderSurvivor(a: Reading, b: Reading, c: Reading)
    requires a.userTs == 2000000 && b.userTs == 0 && c.userTs == 2500000
    ensures BufferPretrigger([a, b], c, 1000) == [a, b, c]
    ensures c.userTs - b.userTs > 1000 * 1000
  {
  }

  /** A 1000 ms window and inserts at t, t + 500 ms and t + 1200 ms keep only the last two. */
  lemma EvictionExample(r1: Reading, r2: Reading, r3: Reading, t: int)
    requires r1.userTs == t && r2.userTs == t + 500000 && r3.userTs == t + 1200000
    ensures BufferPretrigger([], r1, 1000) == [r1]
    ensures BufferPretrigger([r1], r2, 1000) == [r1, r2]
    ensures BufferPretrigger([r1, r2], r3, 1000) == [r2, r3]
  {
    assert [] + [r1] == [r1];
    assert [r1] + [r2] == [r1, r2];
    KeepsWithinWindow([r1, r2], r2.userTs - r1.userTs, 1000);
    assert [r1, r2] + [r3] == [r1, r2, r3];
    assert [r1, r2, r3][1..] == [r2, r3];
    KeepsWithinWindow([r2, r3], r3.userTs - r2.userTs, 1000);
  }

  /** A two-entry buffer whose entries are `age` apart, within the window, is kept whole. */
  lemma KeepsWithinWindow(b: seq<Reading>, age: int, window: int)
    requires window >= 0 && |b| == 2 && b[1].userTs - b[0].userTs == age <= window * 1000
    ensures Evict(b, b[1].userTs, window) == b
  {
  }

  /** The one-argument `sendPretrigger`: every buffered entry, oldest first. */
  function SendPretriggerAll(buffer: seq<Reading>): (out: seq<Reading>)
    ensures out == buffer
  {
    buffer
  }

  /** The index of the last data point called `name`, or -1 if there is none. */
  function LastNamed(dps: seq<Datapoint>, name: string): (j: int)
    ensures -1 <= j < |dps|
    ensures j == -1 ==> forall i :: 0 <= i < |dps| ==> dps[i].name != name
    ensures j >= 0 ==> dps[j].name == name && forall i :: j < i < |dps| ==> dps[i].name != name
    decreases |dps|
  {
    if |dps| == 0 then -1
    else if dps[|dps| - 1].name == name then |dps| - 1
    else
      var init := dps[..|dps| - 1];
      assert forall i :: 0 <= i < |init| ==> init[i] == dps[i];
      LastNamed(init, name)
  }

  /** The value of the last data point called `name`, as the scan of the triggering reading leaves it. */
  function LastValue(dps: seq<Datapoint>, name: string): (r: Option<DpValue>)
    ensures r.None? <==> forall i :: 0 <= i < |dps| ==> dps[i].name != name
    ensures r.Some? ==> exists i :: 0 <= i < |dps| && dps[i].name == name && dps[i].value == r.value
                                    && forall j :: i < j < |dps| ==> dps[j].name != name
  {
    var j := LastNamed(dps, name);
    if j == -1 then None else Some(dps[j].value)
  }

  /** Same kind and equal: integer with integer or float with float; nothing else ever matches. */
  predicate SameValue(a: DpValue, b: DpValue)
  {
    match (a, b)
    case (Int(x), Int(y)) => x == y
    case (Float(x), Float(y)) => x == y
    case _ => false
  }

  /** The inner loop over a buffered reading: some data point called `name` holds a value equal to `m`. */
  function Carries(dps: seq<Datapoint>, name: string, m: DpValue): (b: bool)
    ensures b <==> exists i :: 0 <= i < |dps| && dps[i].name == name && SameValue(dps[i].value, m)
    decreases |dps|
  {
    if |dps| == 0 then false
    else if dps[0].name == name && SameValue(dps[0].value, m) then true
    else
      var b := Carries(dps[1..], name, m);
      assert forall i :: 1 <= i < |dps| ==> dps[i] == dps[1..][i - 1];
      b
  }

  /** The buffered readings that carry the filter value, oldest first; the rest are dropped. */
  function Select(buffer: seq<Reading>, name: string, m: DpValue): (r: seq<Reading>)
    ensures |r| <= |buffer|
    ensures forall x :: x in r <==> x in buffer && Carries(x.dps, name, m)
    decreases |buffer|
  {
    if |buffer| == 0 then []
    else
      var rest := Select(buffer[1..], name, m);
      assert forall x :: x in buffer <==> x == buffer[0] || x in buffer[1..];
      (if Carries(buffer[0].dps, name, m) then [buffer[0]] else []) + rest
  }

  /** Selection keeps arrival order: it distributes over concatenation. */
  lemma {:induction false} SelectAppend(a: seq<Reading>, b: seq<Reading>, name: string, m: DpValue)
    ensures Select(a + b, name, m) == Select(a, name, m) + Select(b, name, m)
    decreases |a|
  {
    if |a| > 0 {
      assert (a + b)[0] == a[0];
      assert (a + b)[1..] == a[1..] + b;
      SelectAppend(a[1..], b, name, m);
    } else {
      assert a + b == b;
    }
  }

  /**
   The two-argument `sendPretrigger`: with no filter name, or a trigger
   reading without that data point, every entry is forwarded in order;
   otherwise an entry is forwarded exactly when it carries a same-named data
   point of the same kind and value as the trigger's last one.
   */
  function SendPretrigger(buffer: seq<Reading>, filterName: string, trigger: Reading): (out: seq<Reading>)
    ensures filterName == "" ==> out == buffer
    ensures (forall i :: 0 <= i < |trigger.dps| ==> trigger.dps[i].name != filterName) ==> out == buffer
    ensures filterName != "" && LastValue(trigger.dps, filterName).Some? ==>
              forall x :: x in out <==>
                x in buffer && Carries(x.dps, filterName, LastValue(trigger.dps, filterName).value)
    ensures |out| <= |buffer|
  {
    var m := if filterName != "" then LastValue(trigger.dps, filterName) else None;
    match m
    case None => SendPretriggerAll(buffer)
    case Some(v) => Select(buffer, filterName, v)
  }

  /**
   The two-argument flush without a filter, because no name is configured or
   the trigger has no data point of that name, is the one-argument flush; with
   a filter in force it forwards the whole buffer only if every entry matches.
   */
  lemma UnfilteredFlushIsFlushAll(buffer: seq<Reading>, filterName: string, trigger: Reading)
    ensures filterName == "" || LastValue(trigger.dps, filterName).None? ==>
              SendPretrigger(buffer, filterName, trigger) == SendPretriggerAll(buffer)
    ensures filterName != "" && LastValue(trigger.dps, filterName).Some?
              && SendPretrigger(buffer, filterName, trigger) == SendPretriggerAll(buffer) ==>
              forall i :: 0 <= i < |buffer| ==>
                Carries(buffer[i].dps, filterName, LastValue(trigger.dps, filterName).value)
  {
    if filterName != "" && LastValue(trigger.dps, filterName).Some?
       && SendPretrigger(buffer, filterName, trigger) == SendPretriggerAll(buffer) {
      var m := LastValue(trigger.dps, filterName).value;
      forall i | 0 <= i < |buffer| ensures Carries(buffer[i].dps, filterName, m) {
        assert buffer[i] in Select(buffer, filterName, m);
      }
    }
  }

  /** A trigger whose filter data point is neither integer nor float forwards nothing. */
  lemma NonNumericFilterDropsAll(buffer: seq<Reading>, filterName: string, trigger: Reading)
    requires filterName != ""
    requires LastValue(trigger.dps, filterName) == Some(Other)
    ensures SendPretrigger(buffer, filterName, trigger) == []
  {
    SelectNothing(buffer, filterName);
  }

  lemma {:induction false} SelectNothing(buffer: seq<Reading>, name: string)
    ensures Select(buffer, name, Other) == []
    decreases |buffer|
  {
    if |buffer| > 0 {
      SelectNothing(buffer[1..], name);
      assert !Carries(buffer[0].dps, name, Other);
    }
  }

  /** With filter `mode`, entries with mode=1 go out on a mode=1 trigger and are dropped on a mode=2 one. */
  lemma FilterExample(e: Reading, t1: Reading, t2: Reading)
    requires e.dps == [Datapoint("mode", Int(1))]
    requires t1.dps == [Datapoint("mode", Int(1))]
    requires t2.dps == [Datapoint("mode", Int(2))]
    ensures SendPretrigger([e], "mode", t1) == [e]
    ensures SendPretrigger([e], "mode", t2) == []
  {
    assert Carries(e.dps, "mode", Int(1));
    assert !Carries(e.dps, "mode", Int(2));
  }
}

=== FILE: rate.dfy ===
/**
 Conversion of the configured reduced rate (a count and a unit) into the
 averaging interval, as `handleConfig` does it with C integer division.
 */
module Rate {
  import opened Timevals

  const PerSecond: string := "per second"
  const PerMinute: string := "per minute"
  const PerHour: string := "per hour"
  const PerDay: string := "per day"

  /** C's `/` on `int`: the quotient truncated toward zero. */
  function CDiv(a: int, b: int): (q: int)
    requires b != 0
    ensures a >= 0 && b > 0 ==> q == a / b
    ensures (a >= 0) == (b > 0) || a == 0 ==> q >= 0
    ensures q * b == a - CRem(a, b)
  {
    var m := (if a < 0 then -a else a) / (if b < 0 then -b else b);
    if (a < 0) != (b < 0) then -m else m
  }

  /** C's `%` on `int`: the remainder carries the sign of the dividend. */
  function CRem(a: int, b: int): (r: int)
    requires b != 0
    ensures -(if b < 0 then -b else b) < r < (if b < 0 then -b else b)
    ensures a >= 0 ==> r >= 0
    ensures a <= 0 ==> r <= 0
  {
    var m := (if a < 0 then -a else a) % (if b < 0 then -b else b);
    if a < 0 then -m else m
  }

  /** The interval as `handleConfig` computes it; an unknown unit keeps `previous`. */
  function RateInterval(rate: int, unit: string, previous: Timeval): (t: Timeval)
    ensures rate == 0 ==> t == Timeval(0, 0)
    ensures rate != 0 && unit !in {PerSecond, PerMinute, PerHour, PerDay} ==> t == previous
    ensures rate > 0 && unit == PerSecond ==>
              t.sec == 0 && t.usec * rate <= 1000000 < (t.usec + 1) * rate
    ensures rate > 0 && unit == PerMinute ==>
              t.usec == 0 && t.sec * rate <= 60 < (t.sec + 1) * rate
    ensures rate > 0 && unit == PerHour ==>
              t.usec == 0 && t.sec * rate <= 3600 < (t.sec + 1) * rate
    ensures rate > 0 && unit == PerDay ==>
              t.usec == 0 && t.sec * rate <= 86400 < (t.sec + 1) * rate
    ensures rate >= 0 && previous.sec >= 0 && 0 <= previous.usec <= MicrosPerSecond ==>
              t.sec >= 0 && 0 <= t.usec <= MicrosPerSecond
  {
    if rate == 0 then Timeval(0, 0)
    else if unit == PerSecond then Timeval(0, CDiv(1000000, rate))
    else if unit == PerMinute then Timeval(CDiv(60, rate), 0)
    else if unit == PerHour then Timeval(CDiv(3600, rate), 0)
    else if unit == PerDay then Timeval(CDiv(24 * 60 * 60, rate), 0)
    else previous
  }

  /** `m_rate.tv_sec != 0 || m_rate.tv_usec != 0`: averaging is switched on. */
  predicate AveragingEnabled(t: Timeval)
  {
    t.sec != 0 || t.usec != 0
  }

  function Abs(x: int): nat
  {
    if x < 0 then -x else x
  }

  /**
   Averaging is off exactly when the rate is 0, when the rate's magnitude is
   so high that the truncating division gives an interval of 0 (more than 60
   per minute, say; a negative rate truncates the same way), or when the unit
   is unknown and the previous interval was already off.
   */
  lemma AveragingDisabledIff(rate: int, unit: string, previous: Timeval)
    ensures !AveragingEnabled(RateInterval(rate, unit, previous)) <==>
              rate == 0
              || (unit == PerSecond && Abs(rate) > 1000000)
              || (unit == PerMinute && Abs(rate) > 60)
              || (unit == PerHour && Abs(rate) > 3600)
              || (unit == PerDay && Abs(rate) > 86400)
              || (unit !in {PerSecond, PerMinute, PerHour, PerDay} && !AveragingEnabled(previous))
  {
    if rate != 0 {
      CDivZeroIff(1000000, rate);
      CDivZeroIff(60, rate);
      CDivZeroIff(3600, rate);
      CDivZeroIff(24 * 60 * 60, rate);
    }
  }

  /** For a positive dividend the truncated quotient is 0 exactly when the divisor's magnitude exceeds it. */
  lemma CDivZeroIff(a: int, b: int)
    requires a > 0 && b != 0
    ensures CDiv(a, b) == 0 <==> Abs(b) > a
  {
    var m := a / Abs(b);
    assert m == 0 <==> Abs(b) > a;
  }

  /**
   A negative rate per minute, hour or day gives a negative whole-second
   interval (60 / -7 truncates to -8 s), so averaging stays on with a deadline
   in the past.
   */
  lemma NegativeRateInterval(rate: int, unit: string, previous: Timeval)
    requires rate < 0 && unit in {PerMinute, PerHour, PerDay}
    requires (unit == PerMinute ==> rate >= -60) && (unit == PerHour ==> rate >= -3600)
             && (unit == PerDay ==> rate >= -86400)
    ensures RateInterval(rate, unit, previous).usec == 0 && RateInterval(rate, unit, previous).sec < 0
  {
  }

  /**
   Worked values, including the truncation of 60 / 7 to 8 seconds and of
   60 / -7 to -8 seconds, and an unknown unit keeping the out-of-range
   interval of a negative rate per second.
   */
  lemma RateIntervalExamples(previous: Timeval)
    ensures RateInterval(2, PerMinute, previous) == Timeval(30, 0)
    ensures RateInterval(7, PerMinute, previous) == Timeval(8, 0)
    ensures RateInterval(-7, PerMinute, previous) == Timeval(-8, 0)
    ensures RateInterval(5, "per fortnight", RateInterval(-5, PerSecond, Timeval(0, 0))) == Timeval(0, -200000)
    ensures RateInterval(3, PerSecond, previous) == Timeval(0, 333333)
    ensures RateInterval(1, PerSecond, previous) == Timeval(0, 1000000)
    ensures RateInterval(5000, PerHour, previous) == Timeval(0, 0)
    ensures RateInterval(4, "per fortnight", previous) == previous
  {
  }
}

=== FILE: rate_filter.dfy ===
/**
 The rate filter's state and its ingestion state machine. One record holds
 the configuration, the single (global, not per-asset) trigger state, the two
 evaluators, the pre-trigger buffer and the averaging accumulator; every
 operation is a pure function from a record to a new one.
 */
module RateFilter {
  import opened Readings
  import opened Timevals
  import opened Rate
  import opened Averaging
  import opened Pretrigger
  import opened Evaluators

  /** The configuration values `handleConfig` reads, already parsed. */
  datatype Config = Config(
    trigger: string,
    untrigger: string,
    preTrigger: int,
    rate: int,
    rateUnit: string,
    pretriggerFilter: string,
    exclusions: seq<string>)  // the string elements of the "exclusions" array, in order

  datatype Filter = Filter(
    trigger: string,
    untrigger: string,
    preTrigger: int,                  // window in milliseconds
    rate: Timeval,                    // averaging interval
    pretriggerFilter: string,
    exclusions: seq<string>,
    triggered: bool,
    pendingReconfigure: bool,
    triggerEval: Option<Evaluator>,
    untriggerEval: Option<Evaluator>,
    buffer: seq<Reading>,
    avg: Averager)

  /** What handling one reading in one state produced: the state stays or flips. */
  datatype Step = Stay(state: Filter, out: seq<Reading>) | Switch(state: Filter, out: seq<Reading>)

  /**
   The end of an ingestion: the new state and the readings appended to the
   output, or `Diverges` when the two handlers would hand the same reading back
   and forth without end (see `LivelockCycle`).
   */
  datatype Outcome = Done(state: Filter, out: seq<Reading>) | Diverges

  /** Both evaluators exist or neither does; each is well formed; the sum table is sorted. */
  predicate WellFormed(f: Filter)
  {
    && (f.triggerEval.Some? <==> f.untriggerEval.Some?)
    && (f.triggerEval.Some? ==> Evaluators.Valid(f.triggerEval.value))
    && (f.untriggerEval.Some? ==> Evaluators.Valid(f.untriggerEval.value))
    && Sorted(f.avg.sums)
  }

  /** Ingestion never changes the configuration or the pending flag. */
  predicate SameConfig(f: Filter, g: Filter)
  {
    && g.trigger == f.trigger && g.untrigger == f.untrigger
    && g.preTrigger == f.preTrigger && g.rate == f.rate
    && g.pretriggerFilter == f.pretriggerFilter && g.exclusions == f.exclusions
    && g.pendingReconfigure == f.pendingReconfigure
  }

  /** `setTrigger`: replaces the trigger text and nothing else. */
  function SetTrigger(f: Filter, expression: string): (r: Filter)
    ensures r.trigger == expression
    ensures r.(trigger := f.trigger) == f
  {
    f.(trigger := expression)
  }

  /** `setUntrigger`: replaces the untrigger text and nothing else. */
  function SetUntrigger(f: Filter, expression: string): (r: Filter)
    ensures r.untrigger == expression
    ensures r.(untrigger := f.untrigger) == f
  {
    f.(untrigger := expression)
  }

  /** `setPreTrigger`: replaces the pre-trigger window and nothing else. */
  function SetPreTrigger(f: Filter, window: int): (r: Filter)
    ensures r.preTrigger == window
    ensures r.(preTrigger := f.preTrigger) == f
  {
    f.(preTrigger := window)
  }

  /**
   `handleConfig` as the source writes it: take the expressions and window,
   recompute the averaging interval (an unknown unit keeps the old one) and
   append the exclusions to those already held. The pre-trigger filter name
   is read into a local that shadows the field, so the field keeps its value.
   */
  function HandleConfigAsWritten(f: Filter, c: Config): (r: Filter)
    ensures r.trigger == c.trigger && r.untrigger == c.untrigger && r.preTrigger == c.preTrigger
    ensures r.rate == RateInterval(c.rate, c.rateUnit, f.rate)
    ensures r.exclusions == f.exclusions + c.exclusions
    ensures r.pretriggerFilter == f.pretriggerFilter
    ensures r.triggered == f.triggered && r.pendingReconfigure == f.pendingReconfigure
    ensures r.triggerEval == f.triggerEval && r.untriggerEval == f.untriggerEval
    ensures r.buffer == f.buffer && r.avg == f.avg
  {
    var g := SetPreTrigger(SetUntrigger(SetTrigger(f, c.trigger), c.untrigger), c.preTrigger);
    g.(rate := RateInterval(c.rate, c.rateUnit, f.rate), exclusions := f.exclusions + c.exclusions)
  }

  /**
   `handleConfig` as intended: as written, and the configured pre-trigger
   filter name is stored in the field.
   */
  function HandleConfig(f: Filter, c: Config): (r: Filter)
    ensures r.trigger == c.trigger && r.untrigger == c.untrigger && r.preTrigger == c.preTrigger
    ensures r.rate == RateInterval(c.rate, c.rateUnit, f.rate)
    ensures r.exclusions == f.exclusions + c.exclusions
    ensures r.pretriggerFilter == c.pretriggerFilter
    ensures r.triggered == f.triggered && r.pendingReconfigure == f.pendingReconfigure
    ensures r.triggerEval == f.triggerEval && r.untriggerEval == f.untriggerEval
    ensures r.buffer == f.buffer && r.avg == f.avg
  {
    HandleConfigAsWritten(f, c).(pretriggerFilter := c.pretriggerFilter)
  }

  /**
   As written, the configured filter name never reaches the field: a filter
   that starts with none keeps forwarding the whole buffer on a trigger, even
   entries whose filter data point differs from the trigger's.
   */
  lemma ConfiguredFilterIgnored(f: Filter, c: Config, buffer: seq<Reading>, trigger: Reading)
    requires f.pretriggerFilter == ""
    ensures HandleConfigAsWritten(f, c).pretriggerFilter == ""
    ensures SendPretrigger(buffer, HandleConfigAsWritten(f, c).pretriggerFilter, trigger) == buffer
  {
  }

  /**
   As intended, a configured filter name takes effect: with filter `mode`, a
   buffered entry with mode=1 is dropped on a mode=2 trigger.
   */
  lemma ConfiguredFilterApplies(f: Filter, c: Config, e: Reading, trigger: Reading)
    requires c.pretriggerFilter == "mode"
    requires e.dps == [Datapoint("mode", Int(1))] && trigger.dps == [Datapoint("mode", Int(2))]
    ensures SendPretrigger([e], HandleConfig(f, c).pretriggerFilter, trigger) == []
  {
    FilterExample(e, e, trigger);
  }

  /** The freshly constructed filter: untriggered, nothing buffered or summed, last emission at time 0. */
  function Create(c: Config): (r: Filter)
    ensures WellFormed(r)
    ensures !r.triggered && !r.pendingReconfigure
    ensures r.triggerEval.None? && r.buffer == [] && r.avg == Averager([], 0, 0)
    ensures r.trigger == c.trigger && r.untrigger == c.untrigger && r.preTrigger == c.preTrigger
    ensures r.rate == RateInterval(c.rate, c.rateUnit, Timeval(0, 0))
    ensures r.pretriggerFilter == c.pretriggerFilter && r.exclusions == c.exclusions
  {
    var blank := Filter("", "", 0, Timeval(0, 0), "", [], false, false, None, None, [], Averager([], 0, 0));
    HandleConfig(blank, c)
  }

  /** `reconfigure`: apply the configuration and mark the evaluators for a rebuild at the next ingestion. */
  function Reconfigure(f: Filter, c: Config): (r: Filter)
    ensures r.pendingReconfigure
    ensures r.triggerEval == f.triggerEval && r.untriggerEval == f.untriggerEval
    ensures r.triggered == f.triggered && r.buffer == f.buffer && r.avg == f.avg
    ensures r.(pendingReconfigure := f.pendingReconfigure) == HandleConfig(f, c)
  {
    HandleConfig(f, c).(pendingReconfigure := true)
  }

  /** `isExcluded`: a linear scan of the exclusion list. */
  function IsExcluded(exclusions: seq<string>, asset: string): (b: bool)
    ensures b <==> asset in exclusions
    decreases |exclusions|
  {
    if |exclusions| == 0 then false
    else if asset == exclusions[0] then true
    else
      var b := IsExcluded(exclusions[1..], asset);
      assert asset in exclusions <==> asset == exclusions[0] || asset in exclusions[1..];
      b
  }

  /**
   The untrigger text `ingest` compiles, as the source writes it: with no
   untrigger configured it wraps the (empty) untrigger itself, so the default
   is the same text whatever the trigger is.
   */
  function UntriggerTextAsWritten(untrigger: string): (t: string)
    ensures untrigger != "" ==> t == untrigger
    ensures untrigger == "" ==> |t| == 4
  {
    if untrigger != "" then untrigger else "! (" + untrigger + ")"
  }

  /**
   The untrigger text as intended: the configured untrigger, or else the
   logical negation `! (trigger)` of the trigger.
   */
  function UntriggerText(trigger: string, untrigger: string): (t: string)
    ensures untrigger != "" ==> t == untrigger
    ensures untrigger == "" ==>
              && |t| == |trigger| + 4 && t[..3] == "! (" && t[|t| - 1] == ')'
              && t[3..|t| - 1] == trigger
  {
    if untrigger != "" then untrigger
    else
      var t := "! (" + trigger + ")";
      assert t[3..|t| - 1] == trigger;
      t
  }

  /**
   The source's default untrigger does not depend on the trigger, so for any
   non-empty trigger it is not the trigger's negation.
   */
  lemma DefaultUntriggerIgnoresTrigger(trigger: string)
    requires trigger != ""
    ensures UntriggerTextAsWritten("") == "! ()"
    ensures UntriggerTextAsWritten("") != UntriggerText(trigger, "")
  {
    assert |UntriggerText(trigger, "")| > 4;
  }

  /**
   The start of `ingest`: a pending reconfiguration drops both evaluators and
   clears the flag; missing evaluators are then built from the batch's first
   reading. Nothing else changes.
   */
  function Prepare(f: Filter, batch: seq<Reading>): (r: Filter)
    requires WellFormed(f)
    requires |batch| > 0 || (!f.pendingReconfigure && f.triggerEval.Some?)
    ensures WellFormed(r) && r.triggerEval.Some? && !r.pendingReconfigure
    ensures f.pendingReconfigure || f.triggerEval.None? ==>
              && r.triggerEval == Some(Build(batch[0], f.trigger))
              && r.untriggerEval == Some(Build(batch[0], UntriggerText(f.trigger, f.untrigger)))
    ensures !f.pendingReconfigure && f.triggerEval.Some? ==> r == f
    ensures r.(triggerEval := f.triggerEval, untriggerEval := f.untriggerEval,
               pendingReconfigure := f.pendingReconfigure) == f
  {
    var g := if f.pendingReconfigure then f.(triggerEval := None, untriggerEval := None, pendingReconfigure := false)
             else f;
    if g.triggerEval.None? then
      g.(triggerEval := Some(Build(batch[0], g.trigger)),
         untriggerEval := Some(Build(batch[0], UntriggerText(g.trigger, g.untrigger))))
    else g
  }

  /**
   One reading of `untriggeredIngest`. An excluded asset is forwarded as it
   is, without evaluating anything. Otherwise the trigger is evaluated: when
   it fires, the state flips, the sums are zeroed and the pre-trigger buffer
   is drained to the output; when it does not, the reading is buffered and,
   if averaging is on, folded in, and only a due average is output.
   */
  function UntriggeredStep(f: Filter, r: Reading, compile: Compiler): (st: Step)
    requires WellFormed(f) && f.triggerEval.Some? && f.preTrigger >= 0 && !f.triggered
    ensures WellFormed(st.state) && SameConfig(f, st.state)
    ensures st.state.triggered <==> st.Switch?
    ensures st.state.untriggerEval == f.untriggerEval
    ensures IsExcluded(f.exclusions, r.asset) ==> st == Stay(f, [r])
    ensures !IsExcluded(f.exclusions, r.asset) ==>
              var (ev, fired) := Evaluate(f.triggerEval.value, r, compile);
              && st.state.triggerEval == Some(ev)
              && (st.Switch? <==> fired)
    ensures st.Switch? ==>
              && st.out == SendPretrigger(f.buffer, f.pretriggerFilter, r)
              && st.state.buffer == []
              && st.state.avg == ClearAverage(f.avg)
    ensures st.Stay? && !IsExcluded(f.exclusions, r.asset) ==>
              && st.state.buffer == BufferPretrigger(f.buffer, r, f.preTrigger)
              && |st.out| <= 1
              && (!AveragingEnabled(f.rate) ==> st.out == [] && st.state.avg == f.avg)
              && (AveragingEnabled(f.rate) ==>
                    var folded := AddAverageReading(f.avg, r, f.rate);
                    st.state.avg == folded.acc && st.out == OptionToSeq(folded.emitted))
  {
    if IsExcluded(f.exclusions, r.asset) then Stay(f, [r])
    else
      var (ev, fired) := Evaluate(f.triggerEval.value, r, compile);
      var g := f.(triggerEval := Some(ev));
      if fired then
        Switch(g.(triggered := true, avg := ClearAverage(g.avg), buffer := []),
               SendPretrigger(g.buffer, g.pretriggerFilter, r))
      else
        var h := g.(buffer := BufferPretrigger(g.buffer, r, g.preTrigger));
        if AveragingEnabled(h.rate) then
          var folded := AddAverageReading(h.avg, r, h.rate);
          Stay(h.(avg := folded.acc), OptionToSeq(folded.emitted))
        else
          Stay(h, [])
  }

  /**
   One reading of `triggeredIngest`: the untrigger is evaluated; when it does
   not fire the reading is forwarded, when it fires nothing is output here and
   the state flips back (the reading is handled again, untriggered).
   */
  function TriggeredStep(f: Filter, r: Reading, compile: Compiler): (st: Step)
    requires WellFormed(f) && f.untriggerEval.Some? && f.triggered
    ensures WellFormed(st.state) && SameConfig(f, st.state)
    ensures st.state.triggered <==> st.Stay?
    ensures var (ev, fired) := Evaluate(f.untriggerEval.value, r, compile);
            && st.state.untriggerEval == Some(ev)
            && (st.Switch? <==> fired)
    ensures st.state.triggerEval == f.triggerEval
    ensures st.state.buffer == f.buffer && st.state.avg == f.avg
    ensures st.out == if st.Stay? then [r] else []
  {
    var (ev, fired) := Evaluate(f.untriggerEval.value, r, compile);
    var g := f.(untriggerEval := Some(ev));
    if fired then Switch(g.(triggered := false), [])
    else Stay(g, [r])
  }

  /** Prefix the output of an outcome; a divergent outcome stays divergent. */
  function Prepend(out: seq<Reading>, o: Outcome): (r: Outcome)
    ensures r.Diverges? <==> o.Diverges?
    ensures r.Done? ==> r.state == o.state && r.out == out + o.out
  {
    match o
    case Done(s, rest) => Done(s, out + rest)
    case Diverges => Diverges
  }

  /**
   The mutually recursive handlers over what remains of the batch. A reading
   that flips the state is handled again in the new state. A reading on which
   the untrigger fires and then, handled again untriggered, the trigger fires
   too would be bounced between the handlers forever: that is `Diverges`.
   */
  function Run(f: Filter, batch: seq<Reading>, compile: Compiler): (o: Outcome)
    requires WellFormed(f) && f.triggerEval.Some? && f.preTrigger >= 0
    ensures o.Done? ==> WellFormed(o.state) && SameConfig(f, o.state) && o.state.triggerEval.Some?
    decreases |batch|, if f.triggered then 0 else 1
  {
    if |batch| == 0 then Done(f, [])
    else if !f.triggered then
      match UntriggeredStep(f, batch[0], compile)
      case Stay(g, out) => Prepend(out, Run(g, batch[1..], compile))
      case Switch(g, out) => Prepend(out, Run(g, batch, compile))
    else
      match TriggeredStep(f, batch[0], compile)
      case Stay(g, out) => Prepend(out, Run(g, batch[1..], compile))
      case Switch(g, _) =>
        match UntriggeredStep(g, batch[0], compile)
        case Stay(h, out) => Prepend(out, Run(h, batch[1..], compile))
        case Switch(_, _) => Diverges
  }

  /**
   `ingest`: prepare the evaluators, then dispatch on the current state. The
   source reads the first reading of the batch when it has to build the
   evaluators, so then the batch must not be empty.
   */
  function Ingest(f: Filter, batch: seq<Reading>, compile: Compiler): (o: Outcome)
    requires WellFormed(f) && f.preTrigger >= 0
    requires |batch| > 0 || (!f.pendingReconfigure && f.triggerEval.Some?)
    ensures o.Done? ==> WellFormed(o.state) && !o.state.pendingReconfigure && o.state.triggerEval.Some?
    ensures o.Done? ==> o.state.trigger == f.trigger && o.state.untrigger == f.untrigger
                        && o.state.rate == f.rate && o.state.exclusions == f.exclusions
    ensures |batch| == 0 ==> o == Done(f, [])
  {
    Run(Prepare(f, batch), batch, compile)
  }
}

=== FILE: readings.dfy ===
/**
 Readings as the rate filter sees them: an asset name, two timestamps and an
 ordered list of named data points. Only integer and floating-point values are
 interpreted; every other kind of value (strings, arrays, ...) is `Other`.

 Timestamps are whole microseconds since the epoch: a normalised `timeval`
 (0 <= tv_usec < 1000000) and its microsecond count determine each other.
 Floating-point values are modelled by exact `real`s.
 */
module Readings {

  datatype Option<+T> = None | Some(value: T)

  datatype DpValue = Int(i: int) | Float(f: real) | Other

  datatype Datapoint = Datapoint(name: string, value: DpValue)

  datatype Reading = Reading(asset: string, userTs: int, ingestTs: int, dps: seq<Datapoint>)

  /** True for the two kinds of value the filter does arithmetic on. */
  predicate IsNumeric(v: DpValue)
  {
    v.Int? || v.Float?
  }

  /** The value a numeric data point contributes; other kinds count as 0.0. */
  function AsReal(v: DpValue): (r: real)
    ensures !IsNumeric(v) ==> r == 0.0
    ensures v.Int? ==> r == v.i as real
    ensures v.Float? ==> r == v.f
  {
    match v
    case Int(i) => i as real
    case Float(f) => f
    case Other => 0.0
  }

  function OptionToSeq<T>(o: Option<T>): (s: seq<T>)
    ensures |s| <= 1
    ensures o.Some? <==> |s| == 1
    ensures o.Some? ==> s[0] == o.value
  {
    match o
    case None => []
    case Some(x) => [x]
  }
}

=== FILE: timevals.dfy ===
/**
 `struct timeval` and the three BSD macros the filter uses on it
 (`timeradd`, `timersub`, `timercmp(.., .., >)`), written out literally,
 together with the facts that make microsecond arithmetic an exact stand-in
 for them on normalised values.
 */
module Timevals {

  const MicrosPerSecond: int := 1000000

  datatype Timeval = Timeval(sec: int, usec: int)

  /** A timeval whose microsecond field is in range, as the C library produces. */
  predicate Normalised(t: Timeval)
  {
    0 <= t.usec < MicrosPerSecond
  }

  /** The number of microseconds a timeval denotes. */
  function Micros(t: Timeval): int
  {
    t.sec * MicrosPerSecond + t.usec
  }

  /** The normalised timeval for a microsecond count (negative counts included). */
  function FromMicros(m: int): (t: Timeval)
    ensures Normalised(t)
    ensures Micros(t) == m
  {
    Timeval(m / MicrosPerSecond, m % MicrosPerSecond)
  }

  /** `timeradd(a, b, res)`: add fieldwise, carry once if the microseconds overflow. */
  function TimerAdd(a: Timeval, b: Timeval): (r: Timeval)
    ensures Micros(r) == Micros(a) + Micros(b)
    ensures Normalised(a) && 0 <= b.usec <= MicrosPerSecond ==> Normalised(r)
  {
    var sec := a.sec + b.sec;
    var usec := a.usec + b.usec;
    if usec >= MicrosPerSecond then Timeval(sec + 1, usec - MicrosPerSecond)
    else Timeval(sec, usec)
  }

  /** `timersub(a, b, res)`: subtract fieldwise, borrow once if the microseconds go negative. */
  function TimerSub(a: Timeval, b: Timeval): (r: Timeval)
    ensures Micros(r) == Micros(a) - Micros(b)
    ensures Normalised(a) && Normalised(b) ==> Normalised(r)
  {
    var sec := a.sec - b.sec;
    var usec := a.usec - b.usec;
    if usec < 0 then Timeval(sec - 1, usec + MicrosPerSecond)
    else Timeval(sec, usec)
  }

  /** `timercmp(a, b, >)`: compare seconds, and microseconds only when the seconds agree. */
  predicate TimerGreater(a: Timeval, b: Timeval)
  {
    if a.sec == b.sec then a.usec > b.usec else a.sec > b.sec
  }

  /** On normalised operands the macro comparison is the comparison of the instants. */
  lemma TimerGreaterExact(a: Timeval, b: Timeval)
    requires Normalised(a) && Normalised(b)
    ensures TimerGreater(a, b) <==> Micros(a) > Micros(b)
  {
    if a.sec > b.sec {
      assert Micros(a) >= (b.sec + 1) * MicrosPerSecond;
    } else if a.sec < b.sec {
      assert Micros(b) >= (a.sec + 1) * MicrosPerSecond;
    }
  }

  /**
   The test `timercmp(t, timeradd(last, interval), >)` used for averaging is
   `t > last + interval` in microseconds, whenever the interval's microsecond
   field lies in 0..1000000 (every interval a non-negative rate produces).
   */
  lemma DeadlineExact(t: int, last: int, interval: Timeval)
    requires 0 <= interval.usec <= MicrosPerSecond
    ensures TimerGreater(FromMicros(t), TimerAdd(FromMicros(last), interval))
            <==> t > last + Micros(interval)
  {
    TimerGreaterExact(FromMicros(t), TimerAdd(FromMicros(last), interval));
  }

  /**
   The test `timercmp(timersub(now, earlier), window, >)` used for pre-trigger
   eviction is `now - earlier > window` in microseconds, for a normalised window.
   */
  lemma AgeExact(now: int, earlier: int, window: Timeval)
    requires Normalised(window)
    ensures TimerGreater(TimerSub(FromMicros(now), FromMicros(earlier)), window)
            <==> now - earlier > Micros(window)
  {
    TimerGreaterExact(TimerSub(FromMicros(now), FromMicros(earlier)), window);
  }
}
